=== FILE: README.md ===
# jsonparser in Dafny

A model of the validating JSON recogniser in `parser.c` and `json.c`. The
recogniser reads one document from standard input through a single
code-point lookahead cell. It builds no value. Either it accepts, or it
prints one diagnostic (row, column, message, rendering of the lookahead)
and exits.

The model has three parts.

- **Scanner** (`parser.dfy`, `location.dfy`). The state is
  `Scanner(rest, row, col)`: `rest[0]` is the lookahead cell and an empty
  `rest` is WEOF. `scan`, `expect`, `noexpect`, `scani`, `expecti`,
  `next_to_string` and `error` become pure functions and two methods (`ScanI` with a loop,
  `ExpectI` on top of it).
  The initial state is the one main.c reaches with its single `scan()`,
  starting from `next = L'\0'`, row 1, column 0.
- **Grammar** (`grammar.dfy`). There is one function per production, and the
  productions are mutually recursive. Each returns `NoMatch(after)`,
  `Match(after)` or `Fatal(at, message)`.
  - `NoMatch` keeps the state, because `number` consumes a `-` and `escaped`
    consumes a `\` before returning false.
  - `Fatal` stands for the call to `error`. It holds the scanner state at
    that moment and the message text, and every caller hands it up
    unchanged.
  - Termination is on the length of the unread input, then a rank among
    rules that call each other without consuming.
- **Properties.**
  - `motion.dfy`: every rule only ever scans forward, so each diagnostic
    names the exact code point of the input it stopped at.
  - `syntax.dfy`: an independent reference grammar. It is a syntax tree, its
    well-formedness conditions and its printed text, and it includes the
    code's quirks.
  - `completeness.dfy` and `soundness.dfy`: each rule matches exactly the
    printed text of a well-formed tree.
  - `language.dfy`: this fixes the language of the whole program.
  - `behaviour.dfy`: every error path and every quirk for all inputs of its
    shape.
  - `scenarios.dfy`: the exact diagnostics of particular inputs.

The recogniser is only loosely based on JSON, and the model follows the C
code:

- No rule skips whitespace between tokens. Section 2 of RFC 8259 allows
  insignificant whitespace around every structural character, and here any
  space or line break between tokens is an error.
- The empty input is accepted.
- `[-]`, `[-true]` and `[-{}]` are accepted, because `number` consumes the
  `-` and then returns false.
- Strings may contain raw control characters and line breaks.
- Duplicate keys are accepted.
- Leading zeros stop the number, and the enclosing rule then fails.

Where the grammar comments in json.c and json.h differ from the code, the
model follows the code:

- **The `\u` loop** (json.c:246-249). The comment at json.c:228 reads
  "u" followed by four hex digits, and section 7 of RFC 8259 has the four
  digits belong to the escape. The loop scans only three of them. The
  fourth is left in the lookahead and read by `nodquoteslash`. The accepted
  language is the same.
- **String body.** The grammar comment in json.h:8 writes the body as a
  concatenation (`nodquoteslash, escaped`). json.c:161 uses an alternation,
  `||`.

## Model

| member | source | states |
|---|---|---|
| Parser.Scan | parser.c:43-52 | at end of input nothing changes; otherwise exactly one code point leaves the unread input, the row goes up by one (column reset to 0) exactly when the new lookahead is a line break, and otherwise the column goes up by one |
| Parser.Render | parser.c:62-70 | the rendering is "EOF" exactly for end of input; a code point renders as itself, and NUL as the empty string |
| Parser.NextToString | parser.c:62-70 | `next_to_string` yields "EOF" exactly at end of input, and otherwise the lookahead as a one-character string (empty for NUL) |
| Parser.Error | parser.c:72-75 | the diagnostic carries the current row, column and message, and its lookahead rendering is "EOF" exactly at end of input, otherwise the lookahead code point itself (empty for NUL) |
| Parser.Initial | main.c:13 | the whole input is unread at the start; the counters show row 1 column 1, or row 2 column 0 when the first code point is a line break |
| Parser.Expect | parser.c:34-41 | succeeds iff the lookahead equals the expected token; a matched code point is consumed by exactly one scan, a matched EOF leaves the state as it was, and a failure changes nothing |
| Parser.StopIndex | parser.c:14-16 | the search through the excluded set stops at the first entry equal to the lookahead, or at the set's end, and does not move at end of input |
| Parser.NoExpect | parser.c:11-23 | succeeds iff the lookahead is a code point outside the excluded set (or EOF when the set is empty); a success on a code point consumes exactly it, a success at end of input consumes nothing, and on failure nothing changes |
| Parser.ScanI | parser.c:54-60 | at end of input nothing changes; otherwise it scans once and then over the whole run of whitespace, stopping at end of input or at a non-whitespace lookahead |
| Parser.ExpectI | parser.c:25-32 | succeeds iff the lookahead equals the token; a matched end of input leaves the state as it was, a matched code point is scanned once and past all following whitespace; on failure nothing changes |
| Parser.AdvanceAtEof | parser.c:44 | once the lookahead is EOF, any number of further scans leaves the state unchanged |
| Parser.PositionMonotone | parser.c:45-50 | over any number of scans the row never decreases, and the column only goes back when the row goes up |
| Parser.RenderInjective | parser.c:62-70 | two lookaheads with the same rendering are the same lookahead, so a diagnostic identifies the code point (or EOF) it stopped at |
| Location.CountersTrackInput | parser.c:45-50 | after k scans from the initial state, the unread input is the input minus its first k code points, the row is one plus the line breaks read, and the column is the count of code points since the last line break |
| Motion.JsonMoves | json.c:45-58 | whatever `json` returns, the state it stops in is the initial state scanned forward over exactly the code points it consumed |
| Motion.EscapedMoves | json.c:230-261 | `escaped` only moves forward by scans, including when it gives up after consuming the backslash |
| Motion.NumberMoves | json.c:178-211 | `number` only moves forward by scans, including when it gives up after consuming the '-' |
| Motion.ErrorPinpointed | parser.c:72-75 | every rejection reports the row and column of a position k of the input, its message, and the rendering of the code point at k (or "EOF" at the end), where the state it stopped in has exactly input[k..] unread |
| Grammar.Digit | json.c:281-291 | matches iff the lookahead is a decimal digit, consuming exactly it; never fatal |
| Grammar.Nonzero | json.c:266-276 | matches iff the lookahead is a digit other than '0', consuming exactly it; never fatal |
| Grammar.Digits | json.c:185 | consumes the longest run of decimal digits and nothing else |
| Grammar.Fraction | json.c:191-197 | without a '.' nothing is consumed; a '.' not followed by a digit is fatal at the code point after the '.'; otherwise at least the '.' and one digit are consumed |
| Grammar.SignedDigits | json.c:199-204 | after the exponent marker, the sign-and-digits step never fails plainly: a match consumes input, and an error carries the exponent message |
| Grammar.Exponent | json.c:198-205 | without 'e'/'E' nothing is consumed; with one, a fatal result carries only the exponent message, and a match consumes at least the marker and one digit |
| Grammar.Magnitude | json.c:182-206 | is no match, consuming nothing, exactly when the lookahead is not a digit; a match consumes at least one code point |
| Grammar.NumberTail | json.c:190-206 | the fraction-and-exponent steps never fail plainly; without a '.', 'e' or 'E' ahead they consume nothing; their only errors are the fraction and exponent messages |
| Grammar.Number | json.c:178-211 | is no match exactly when the text does not start with an optional '-' and a digit; a failed '-' stays consumed; a match consumes at least one code point |
| Grammar.NoDQuoteSlash | json.c:216-225 | matches iff the lookahead is a code point other than '"' and '\\', control characters and line breaks included, consuming exactly it |
| Grammar.HexRun | json.c:246-249 | the counting loop ends with count 0 iff the next `count` code points are all hex digits, having scanned `count - 1` of them; otherwise it stops on the first non-hex lookahead with the number of missing digits |
| Grammar.Unicode | json.c:245-255 | after "\\u", matches iff the next four code points are hex digits, consuming only three; otherwise fatal with the hex message at the first non-hex position |
| Grammar.EscapeCode | json.c:234-256 | after a backslash, consumes one of the eight simple escape letters, or a 'u' and the first three of four hex digits, leaving the fourth as the lookahead; fails (consuming nothing more) on any other code point; fatal only for a short \u |
| Grammar.Escaped | json.c:230-261 | no match iff there is no backslash or it is followed by neither a simple escape letter nor 'u', and in that case the backslash stays consumed; a \u without four hex digits is fatal |
| Grammar.Body | json.c:161 | the loop over the string body never ends in a plain failure, and the only error it can raise is the hex one |
| Grammar.String | json.c:157-171 | no match, consuming nothing, iff the lookahead is not '"'; a match consumes at least both quotes; an error is either the unclosed-string or the hex message |
| Grammar.ExpectFirst | json.c:234-243 | a chain of alternative `expect` calls succeeds iff the lookahead is one of the options and then consumes exactly it |
| Grammar.ExpectAll | json.c:300 | a chain of `expect` calls joined by `&&` succeeds iff the word is a prefix of the unread input, and in every case it stops after the longest common prefix |
| Grammar.Keyword | json.c:296-309 | no match iff the lookahead is not the keyword's first letter; a match iff the whole keyword follows, consuming it; otherwise fatal right after the longest matching prefix |
| Grammar.TrueLiteral | json.c:296-309 | commits on 't'; matches iff "true" follows; otherwise fatal with the `true` message where the text leaves "true" |
| Grammar.FalseLiteral | json.c:314-327 | commits on 'f'; matches iff "false" follows; otherwise fatal with the `false` message where the text leaves "false" |
| Grammar.NullLiteral | json.c:332-345 | commits on 'n'; matches iff "null" follows; otherwise fatal with the `null` message where the text leaves "null" |
| Grammar.Value | json.c:135-152 | a plain failure consumes nothing, except a leading '-' that `number` has consumed; a match consumes input |
| Grammar.Composite | json.c:141-145 | the alternatives after `number` are tried only on '{', '[', 't', 'f', 'n', and otherwise nothing is consumed |
| Grammar.Literal | json.c:143-145 | the keyword alternatives fail, consuming nothing, exactly when the lookahead is not 't', 'f' or 'n' |
| Grammar.Object | json.c:63-83 | no match, consuming nothing, iff the lookahead is not '{'; a match consumes at least both braces |
| Grammar.Pairs | json.c:68-72 | the ", pair" loop never ends in a plain failure |
| Grammar.Pair | json.c:88-105 | no match, consuming nothing, iff the lookahead is not '"'; a match consumes input |
| Grammar.Array | json.c:110-130 | no match, consuming nothing, iff the lookahead is not '['; a match consumes at least both brackets |
| Grammar.Values | json.c:115-119 | the ", value" loop never ends in a plain failure |
| Grammar.Root | json.c:49 | trying `object` and then `array` fails, consuming nothing, exactly when the lookahead is neither '{' nor '[' |
| Grammar.Json | json.c:45-58 | `json` never returns false, and when it returns the whole input has been read |
| Grammar.Run | main.c:13-15 | a whole run never fails plainly, reads all the input when it succeeds, and succeeds on the empty input |
| Completeness.DigitsComplete | json.c:185 | a digit run followed by a non-digit is consumed exactly |
| Completeness.IntegerComplete | json.c:182-189 | a "0" is taken by the first branch alone, and any other integer part by `nonzero` and the digit loop, stopping exactly after it |
| Completeness.FractionComplete | json.c:191-197 | a fraction part is matched and consumed exactly |
| Completeness.SignedDigitsComplete | json.c:199-204 | an optional sign and a digit run are matched and consumed exactly |
| Completeness.ExponentComplete | json.c:198-205 | an exponent part is matched and consumed exactly |
| Completeness.NumberTailComplete | json.c:190-206 | a fraction and exponent followed by a delimiter are consumed exactly |
| Completeness.MagnitudeComplete | json.c:182-206 | an unsigned number followed by a delimiter is consumed exactly |
| Completeness.NumberComplete | json.c:178-211 | the text of every well-formed number followed by a delimiter is matched and consumed exactly |
| Completeness.PlainUnit | json.c:216-225 | a code point other than '"' and '\\' is one step of the body loop |
| Completeness.EscapeUnit | json.c:234-244 | a backslash and a simple escape letter are one step of the body loop |
| Completeness.UnicodeUnit | json.c:245-255 | "\\u" and four hex digits are one step of the body loop (three scans plus the fourth digit as an ordinary code point) |
| Completeness.BodyComplete | json.c:161 | the body loop consumes every well-formed string body and stops on the closing quote |
| Completeness.StringComplete | json.c:157-171 | every well-formed quoted string is matched and consumed exactly |
| Completeness.KeywordComplete | json.c:296-309 | a keyword's full text is matched and consumed exactly |
| Completeness.ValueComplete | json.c:135-152 | the text of every well-formed value followed by a delimiter is matched and consumed exactly |
| Completeness.CompositeComplete | json.c:141-145 | an object, array or keyword text is matched by the alternatives after `number` |
| Completeness.LiteralComplete | json.c:143-145 | `true`, `false` and `null` texts are matched by the keyword alternatives |
| Completeness.ObjectComplete | json.c:63-83 | the text of every well-formed object is matched and consumed exactly, whatever follows |
| Completeness.PairsComplete | json.c:68-72 | a run of ", pair" texts before a closing bracket or end of input is consumed exactly |
| Completeness.PairComplete | json.c:88-105 | a key, ':' and value text followed by a delimiter is matched and consumed exactly |
| Completeness.ArrayComplete | json.c:110-130 | the text of every well-formed array is matched and consumed exactly, whatever follows |
| Completeness.DashComplete | json.c:181-189 | "[-]" is matched as an array, because the '-' consumed by a failed `number` is not given back |
| Completeness.ValuesComplete | json.c:115-119 | a run of ", value" texts before a closing bracket or end of input is consumed exactly |
| Soundness.DigitsSound | json.c:185 | what the digit loop consumes is a run of digits |
| Soundness.FractionSound | json.c:191-197 | what a matched fraction consumes is the text of a fraction part |
| Soundness.SignedDigitsSound | json.c:199-204 | what is consumed after an exponent marker is an optional sign and at least one digit |
| Soundness.ExponentSound | json.c:198-205 | what a matched exponent consumes is the text of a well-formed exponent part |
| Soundness.NumberTailSound | json.c:190-206 | what the fraction and exponent steps consume is the text of a fraction and an exponent |
| Soundness.MagnitudeSound | json.c:182-206 | what a matched unsigned number consumes is the text of a well-formed number without leading zeros |
| Soundness.NumberSound | json.c:178-211 | what `number` consumes when it matches is the text of a well-formed number |
| Soundness.BodySound | json.c:161 | what the body loop consumes before a closing quote is a well-formed string body |
| Soundness.StringSound | json.c:157-171 | what `string` consumes when it matches is a quoted well-formed body |
| Soundness.KeywordSound | json.c:296-309 | a matched keyword consumed exactly its word |
| Soundness.TrueSound | json.c:296-309 | a matched `_true` consumed exactly "true" |
| Soundness.FalseSound | json.c:314-327 | a matched `_false` consumed exactly "false" |
| Soundness.NullSound | json.c:332-345 | a matched `_null` consumed exactly "null" |
| Soundness.LiteralSound | json.c:143-145 | what the keyword alternatives consume is the text of one of the three literals |
| Soundness.ValueSound | json.c:135-152 | what `value` consumes when it matches is the text of a well-formed value |
| Soundness.CompositeSound | json.c:141-145 | what the alternatives after `number` consume is the text of a well-formed object, array or literal with no leading '-', because `number` has already consumed any '-' |
| Soundness.ObjectSound | json.c:63-83 | what `object` consumes when it matches is the text of a well-formed object |
| Soundness.PairsSound | json.c:68-72 | what the ", pair" loop consumes is a run of well-formed ", member" texts |
| Soundness.PairSound | json.c:88-105 | what `pair` consumes when it matches is a well-formed key, ':' and value |
| Soundness.ArraySound | json.c:110-130 | what `array` consumes when it matches is the text of a well-formed array or "[-]" |
| Soundness.ValuesSound | json.c:115-119 | what the ", value" loop consumes is a run of well-formed ", value" texts |
| Language.RootComplete | json.c:49 | the root alternatives match the text of every well-formed object or array and stop right after it |
| Language.RootSound | json.c:49 | what the root alternatives match is the text of a well-formed object or array |
| Language.Accepted | json.c:45-58 | a run succeeds exactly on the empty input and on the text of a well-formed object or array, with no whitespace between tokens (string bodies may hold any code point but '"' and '\\') |
| Language.TrailingText | json.c:51-52 | anything after a complete document, a single line break included, is rejected at its first code point with the end-of-input message |
| Language.PrefixFree | json.c:45-58 | no document text is a proper prefix of another, so where a document ends is fixed by its text |
| Behaviour.ValueDispatch | json.c:138-146 | which alternative of `value` decides the result for each possible lookahead: none for anything that cannot start a value, `number` then the others after a '-' |
| Behaviour.WhitespaceStops | json.c:63-152 | on a whitespace lookahead, `value`, `pair` and the root fail consuming nothing and both separator loops stop at once |
| Behaviour.LeadingWhitespace | json.c:49-52 | input that starts with whitespace is rejected at its first code point with the end-of-input message |
| Behaviour.MissingColon | json.c:92-100 | a key not followed by ':' is fatal with the colon message, right after the key |
| Behaviour.ValueFails | json.c:135-152 | `value` fails plainly exactly when no value starts at the lookahead, or a '-' comes that neither a digit nor '{', '[', 't', 'f', 'n' follows; only that '-' is then consumed |
| Behaviour.MissingValue | json.c:93-97 | a ':' followed by text on which `value` fails (whitespace, say) is fatal with the value message, right after the ':', or right after a lone '-' |
| Behaviour.CommaNeedsPair | json.c:68-71 | a ',' in an object not followed by '"' is fatal right after the ',' |
| Behaviour.CommaNeedsValue | json.c:115-118 | a ',' in an array followed by text on which `value` fails is fatal with the "another value" message right after the ',', or right after a lone '-' |
| Behaviour.PairsWalk | json.c:68-72 | the ", pair" loop passes over well-formed members and resumes unchanged on what follows |
| Behaviour.ValuesWalk | json.c:115-119 | the ", value" loop passes over well-formed items and resumes unchanged on what follows |
| Behaviour.ObjectTrailingComma | json.c:66-72 | an object whose members end in a ',' without another pair is fatal with the "another pair" message right after the ',' |
| Behaviour.ArrayTrailingComma | json.c:113-119 | an array whose items end in a ',' without another value is fatal with the "another value" message right after the ',', or right after a lone '-' |
| Behaviour.MembersEnd | json.c:67-73 | the members of an object are read without error up to end of input or the first code point after the last value that is not a digit, '.', 'e', 'E' or ',' (or, with no member, is not a '"') |
| Behaviour.ItemsEnd | json.c:114-120 | the items of an array are read without error up to end of input or the first code point after the last item that is not a digit, '.', 'e', 'E' or ','; with no item, up to the text `value` fails on, past a lone '-' |
| Behaviour.MissingObjectClose | json.c:74-78 | an object whose members are followed by anything other than '}' (end of input, whitespace, ']', ...) is fatal with the unclosed-object message at that point |
| Behaviour.MissingArrayClose | json.c:121-125 | an array whose items are followed by anything other than ']' (end of input, whitespace, '}', ...) is fatal with the unclosed-array message at that point, which with no item lies past a lone '-' |
| Behaviour.IntegerPart | json.c:181-189 | after an optional '-' and the integer part, `number` continues with the fraction and exponent steps on exactly what follows |
| Behaviour.ZeroStops | json.c:182-183 | a leading '0' ends the integer part even when more digits follow, and `number` matches just the "0" |
| Behaviour.FractionNeedsDigits | json.c:191-196 | a '.' not followed by a digit is fatal with the fraction message right after the '.' |
| Behaviour.ExponentNeedsDigits | json.c:198-204 | an exponent marker and optional sign without a digit is fatal with the exponent message right after them |
| Behaviour.BodyWalk | json.c:161 | the body loop passes over a well-formed body and resumes unchanged on what follows |
| Behaviour.StringAtEof | json.c:162-166 | a quote and a well-formed body followed by end of input is fatal with the unclosed-string message at end of input |
| Behaviour.BackslashAtEof | json.c:233-257 | a quote and a well-formed body followed by a lone backslash at end of input is fatal with the unclosed-string message at end of input, the backslash having been consumed |
| Behaviour.UnknownEscape | json.c:233-257 | a backslash followed by an unknown letter ends the body loop with the backslash consumed, and the string is fatal with the unclosed-string message at that letter |
| Behaviour.HexStop | json.c:245-253 | after "\\u", fewer than four hex digits is fatal with the hex message at the first non-hex position |
| Behaviour.UnicodeInBody | json.c:161 | in the body loop, "\\u" hands over to the hex step after its two code points |
| Behaviour.ShortUnicode | json.c:245-253 | a string whose \u has fewer than four hex digits is fatal with the hex message right after the hex digits it has |
| Scenarios.EmptyAccepted | json.c:49-54 | the empty input is accepted |
| Scenarios.DashAccepted | json.c:181-189 | "[-]" is accepted |
| Scenarios.SignedKeywordAccepted | json.c:139-145 | "[-true]" is accepted |
| Scenarios.DuplicateKeysAccepted | json.c:66-73 | an object with a repeated key is accepted |
| Scenarios.RawLineBreakAccepted | json.c:216-225 | a raw line break inside a string is accepted |
| Scenarios.BareTrueReported | json.c:49-52 | a bare "true" is rejected at 1:1 with the end-of-input message and next "t" |
| Scenarios.TrailingCommaReported | json.c:68-71 | the input {"a":1,} is rejected at 1:8 with the "another pair" message and next "}" |
| Scenarios.EmptyValueReported | json.c:93-97 | the input {"a":} is rejected at 1:6 with the value message and next "}" |
| Scenarios.SpaceAfterColonReported | json.c:93-97 | the input {"a": 1} is rejected at 1:6 with the value message and next " " |
| Scenarios.ShortUnicodeReported | json.c:247-252 | the input ["\u12"] is rejected at 1:7 with the hex message and next '"' |
| Scenarios.NewlineAfterDocumentReported | parser.c:47-50 | the input "{}" plus a line feed is rejected at 2:0 with the end-of-input message, next being the line feed |
| Scenarios.LeadingZeroReported | json.c:182-183 | the input [01] is rejected at 1:3 with the unclosed-array message and next "1" |
| Scenarios.BrokenKeywordReported | json.c:299-304 | the input [tru] is rejected at 1:5 with the `true` message and next "]" |
| Scenarios.BackslashAtEofReported | json.c:162-166 | the input ["ab\ (ending in a backslash) is rejected at 1:6 with the unclosed-string message and next "EOF" |
| Scenarios.UnknownEscapeReported | json.c:233-257 | the input ["\q"] is rejected at 1:4 with the unclosed-string message and next "q" |
| Scenarios.DashValueFails | json.c:93-97 | in {"a":-} the pair fails with the value message at the '}', after the '-' that `number` consumed |
| Scenarios.DashAfterCommaFails | json.c:115-118 | in [1,-] the array fails with the "another value" message at the ']', after the '-' |
| Scenarios.SpacedEmptyObjectFails | json.c:74-78 | in { } the object fails with the unclosed-object message at the space |
| Scenarios.SpacedArrayFails | json.c:121-125 | in [1 ] the array fails with the unclosed-array message at the space |
| Scenarios.UnclosedObjectReported | json.c:74-78 | the input {"a":1 is rejected at 1:7 with the unclosed-object message and next "EOF" |

## Left out

- Standard input and `getwchar`: the input is a finite sequence of code points given in advance. Invalid multibyte input, which `getwchar` reports as WEOF, is not modelled.
- The locale setup and the "Successful parse!" line in main.c: only the initial `scan()` is kept, as the initial state.
- `wprintf`, `swprintf` and `exit` in `error` and `next_to_string`: a rejection is the `Fatal` outcome, and its diagnostic is a record (row, column, message, rendering) rather than printed text.
- The DEBUG tracing (`enter`, `leave`, `depth`): it only prints.
- Locale-dependent character classes: `iswspace`, `iswblank`, `iswdigit` and `iswxdigit` are fixed to their ASCII members.
- json.h and parser.h: they hold only declarations and a grammar comment.
- Parser.ScanI and Parser.ExpectI are modelled but no grammar rule calls them, so they play no part in the accepted language.
- Grammar.Body: its contract only says the loop never fails plainly and raises only the hex error. What it consumes is stated by Completeness.BodyComplete and Soundness.BodySound.
- Grammar.Pairs: its contract only says the loop never fails plainly. What it consumes and when it is fatal is stated by Completeness.PairsComplete, Soundness.PairsSound and Behaviour.CommaNeedsPair.
- Grammar.Values: its contract only says the loop never fails plainly. What it consumes and when it is fatal is stated by Completeness.ValuesComplete, Soundness.ValuesSound and Behaviour.CommaNeedsValue.
- Grammar.Value: its contract gives only how much a failure or a match consumes. Which alternative decides is in Behaviour.ValueDispatch, and the language is in Completeness.ValueComplete and Soundness.ValueSound.
- Grammar.Pair: its contract gives only when it fails plainly. Its errors are in Behaviour.MissingColon and Behaviour.MissingValue.
- Grammar.Object: its contract gives only when it fails plainly and a lower bound on what it consumes. Its errors are in the Behaviour lemmas on commas and closers.
- Grammar.Array: its contract gives only when it fails plainly and a lower bound on what it consumes. Its errors are in the Behaviour lemmas on commas and closers.
- Grammar.Run: its contract says only that it never fails plainly, reads to the end when it succeeds and accepts the empty input. Which inputs it accepts is in Language.Accepted, and how text after a document is rejected is in Language.TrailingText.
- Grammar.Json: its contract says only that it never fails plainly and reads to the end when it succeeds. Its language is in Language.Accepted and Language.TrailingText.
- Grammar.String: its contract gives the plain-failure case and the possible messages. Where it stops is in Behaviour.StringAtEof, Behaviour.BackslashAtEof, Behaviour.UnknownEscape and Behaviour.ShortUnicode; together with Completeness.StringComplete these cover every way the body loop can end.
- Grammar.NumberTail: its contract gives only its possible messages and that it consumes nothing without a '.', 'e' or 'E' ahead. What a match consumes otherwise is in Completeness.NumberTailComplete and Soundness.NumberTailSound.
- Grammar.Number: its contract gives the plain-failure case exactly and only a bound for a match. Its language is in Completeness.NumberComplete and Soundness.NumberSound.
- Grammar.Magnitude: its contract only bounds what a match consumes. Its language is in Completeness.MagnitudeComplete and Soundness.MagnitudeSound.
- Grammar.Exponent: its contract only bounds what a match consumes. Its language is in Completeness.ExponentComplete and Soundness.ExponentSound.
- Grammar.SignedDigits: its contract only bounds what a match consumes. Its language is in Completeness.SignedDigitsComplete and Soundness.SignedDigitsSound.
- Grammar.Fraction: its contract only bounds what a match consumes. Its language is in Completeness.FractionComplete and Soundness.FractionSound.
- Grammar.Composite: its contract gives only when it fails plainly and a bound on a match. Which alternative decides is in Behaviour.ValueDispatch, and what it accepts is in Completeness.CompositeComplete and Soundness.CompositeSound.
- Grammar.Literal: its contract gives only when it fails plainly and a bound on a match. Each keyword's behaviour is in Grammar.TrueLiteral, Grammar.FalseLiteral and Grammar.NullLiteral, and what it accepts is in Completeness.LiteralComplete and Soundness.LiteralSound.
- Grammar.Root: its contract gives only when it fails plainly. What it matches is in Language.RootComplete and Language.RootSound.
- Behaviour.MissingObjectClose: after a last value that is not a number, a digit, '.', 'e' or 'E' is also left unclosed, but the lemma requires a code point that cannot continue any value, so that case is not covered.
- Behaviour.MissingArrayClose: as for objects, a digit, '.', 'e' or 'E' after a last item that is not a number is not covered.
- Behaviour.MembersEnd: after a last value that is not a number, the members also end at a digit, '.', 'e' or 'E' (as in `{"a":"x"1}`), but the lemma requires a code point that cannot continue any value, so that case is not covered.
- Behaviour.ItemsEnd: as for members, a digit, '.', 'e' or 'E' after a last item that is not a number is not covered.
- Recursion depth: `value`, `object` and `array` recurse once per nesting level in the C, so very deep input (say 100 000 '[') exhausts the C stack before any diagnostic. The model has no stack, and Language.Accepted states the outcome of arbitrarily deep input.
- Row and column are unbounded integers. The C `int` counters would overflow only past 2^31 code points, which is not modelled.

=== FILE: behaviour.dfy ===
/** Behaviour of the rules at the points where the recogniser commits or
    gives up: which alternative of `value` a lookahead selects, where
    whitespace stops a rule, and which diagnostic a malformed object, array,
    pair, number or string draws, and at which code point. */
module Behaviour {
  import opened Parser
  import opened Grammar
  import opened Syntax
  import Completeness

  /** The code points a value can start with. */
  predicate StartsValue(c: char) {
    c == '"' || c == '-' || IsDigit(c) || c == '{' || c == '[' || c == 't' || c == 'f' || c == 'n'
  }

  /** `value` decides on its lookahead alone: each code point selects at most
      one alternative, which then decides the outcome. Only '-' can fall
      through, from `number` to the composite alternatives after it. */
  lemma ValueDispatch(st: Scanner)
    ensures st.rest == [] || !StartsValue(st.rest[0]) ==> Value(st) == NoMatch(st)
    ensures st.rest != [] && st.rest[0] == '"' ==> Value(st) == String(st)
    ensures st.rest != [] && IsDigit(st.rest[0]) ==> Value(st) == Number(st)
    ensures st.rest != [] && st.rest[0] == '-' ==>
      Value(st) == if Number(st).NoMatch? then Composite(Scan(st)) else Number(st)
    ensures st.rest != [] && st.rest[0] == '{' ==> Value(st) == Object(st)
    ensures st.rest != [] && st.rest[0] == '[' ==> Value(st) == Array(st)
    ensures st.rest != [] && st.rest[0] == 't' ==> Value(st) == TrueLiteral(st)
    ensures st.rest != [] && st.rest[0] == 'f' ==> Value(st) == FalseLiteral(st)
    ensures st.rest != [] && st.rest[0] == 'n' ==> Value(st) == NullLiteral(st)
  {
    if st.rest != [] && st.rest[0] in "{[tfn" {
      Completeness.ValueToComposite(st);
    }
  }

  /** Text on which `value` fails: nothing a value starts with, or a '-'
      followed by neither a digit nor the start of an object, array or
      keyword. */
  predicate NoValue(t: string) {
    t == [] || !StartsValue(t[0]) ||
    (t[0] == '-' && (|t| == 1 || (!IsDigit(t[1]) && t[1] !in "{[tfn")))
  }

  /** The text left when `value` fails on `t`: a leading '-' stays consumed. */
  function PastDash(t: string): string {
    if t != [] && t[0] == '-' then t[1..] else t
  }

  /** `value` fails plainly exactly on the text `NoValue` describes, and
      then only a leading '-' has been consumed. */
  lemma ValueFails(st: Scanner)
    ensures Value(st).NoMatch? <==> NoValue(st.rest)
    ensures Value(st).NoMatch? ==> Value(st).after.rest == PastDash(st.rest)
  {
    ValueDispatch(st);
    if st.rest != [] && st.rest[0] == '-' {
      Completeness.ScanPast(st, '-', st.rest[1..]);
    }
  }

  /** No rule skips whitespace: with whitespace in the lookahead every rule
      that needs a token fails without consuming, and the list loops end. */
  lemma WhitespaceStops(st: Scanner)
    requires st.rest != [] && IsSpace(st.rest[0])
    ensures Value(st) == NoMatch(st) && Pair(st) == NoMatch(st) && Root(st) == NoMatch(st)
    ensures Pairs(st) == Match(st) && Values(st) == Match(st)
  {
    ValueDispatch(st);
  }

  /** Whitespace before a document: the root does not match and the run
      fails on the end-of-input check at the first code point. */
  lemma LeadingWhitespace(input: string)
    requires input != [] && IsSpace(input[0])
    ensures Run(input) == Fatal(Initial(input), EofExpected)
  {
    WhitespaceStops(Initial(input));
  }

  // Pairs.

  /** Once the key string matched, a missing ':' is fatal at the code point
      after the key. */
  lemma MissingColon(st: Scanner, key: string, tail: string)
    requires WfBody(key) && st.rest == "\"" + key + "\"" + tail && (tail == [] || tail[0] != ':')
    ensures Pair(st).Fatal? && Pair(st).message == PairNeedsColon && Pair(st).at.rest == tail
  {
    Completeness.StringComplete(st, key, tail);
  }

  /** Once key and ':' matched, text no value starts with is fatal right
      after the ':' (whitespace is such text), or right after a '-' that
      starts no value. */
  lemma MissingValue(st: Scanner, key: string, tail: string)
    requires WfBody(key) && st.rest == "\"" + key + "\"" + ([':'] + tail)
    requires NoValue(tail)
    ensures Pair(st).Fatal? && Pair(st).message == PairNeedsValue && Pair(st).at.rest == PastDash(tail)
  {
    Completeness.StringComplete(st, key, [':'] + tail);
    var colon := Scan(String(st).after);
    Completeness.ScanPast(String(st).after, ':', tail);
    ValueFails(colon);
  }

  // Lists.

  /** A comma inside an object must be followed by a pair: otherwise `object`
      fails right after the comma. */
  lemma CommaNeedsPair(st: Scanner, tail: string)
    requires st.rest == [','] + tail && (tail == [] || tail[0] != '"')
    ensures Pairs(st) == Fatal(Scan(st), ObjectNeedsPair)
  {
    Completeness.ScanPast(st, ',', tail);
  }

  /** A comma inside an array must be followed by a value: otherwise `array`
      fails right after the comma, or right after a '-' that starts no
      value. */
  lemma CommaNeedsValue(st: Scanner, tail: string)
    requires st.rest == [','] + tail && NoValue(tail)
    ensures Values(st).Fatal? && Values(st).message == ArrayNeedsValue && Values(st).at.rest == PastDash(tail)
  {
    Completeness.ScanPast(st, ',', tail);
    ValueFails(Scan(st));
  }

  /** The pair loop of `object` walks over well-formed members one comma at a
      time and ends up where the members' text ends. */
  lemma PairsWalk(ms: seq<Member>, st: Scanner, tail: string) returns (s: Scanner)
    requires Wf(Obj(ms)) && st.rest == MoreMembers(ms) + tail && Delimited(tail)
    ensures s.rest == tail && Pairs(st) == Pairs(s)
    decreases ms
  {
    if ms == [] {
      s := st;
    } else {
      var more := MoreMembers(ms[1..]) + tail;
      Completeness.MoreMembersText(ms, tail);
      Completeness.ScanPast(st, ',', PrintMember(ms[0]) + more);
      Completeness.WfMembersRest(ms);
      Completeness.PairComplete(ms[0], Scan(st), more);
      s := PairsWalk(ms[1..], Pair(Scan(st)).after, tail);
    }
  }

  /** The value loop of `array`, likewise. */
  lemma ValuesWalk(vs: seq<Tree>, st: Scanner, tail: string) returns (s: Scanner)
    requires Wf(Arr(vs)) && st.rest == MoreItems(vs) + tail && Delimited(tail)
    ensures s.rest == tail && Values(st) == Values(s)
    decreases vs
  {
    if vs == [] {
      s := st;
    } else {
      var more := MoreItems(vs[1..]) + tail;
      Completeness.MoreItemsText(vs, tail);
      Completeness.ScanPast(st, ',', Print(vs[0]) + more);
      Completeness.WfItemsRest(vs);
      Completeness.ValueComplete(vs[0], Scan(st), more);
      s := ValuesWalk(vs[1..], Value(Scan(st)).after, tail);
    }
  }

  /** A comma after the last member of an object, with no pair after it, is
      fatal right after the comma. */
  lemma ObjectTrailingComma(ms: seq<Member>, st: Scanner, tail: string)
    requires Wf(Obj(ms)) && ms != [] && st.rest == "{" + (PrintMembers(ms) + ([','] + tail))
    requires tail == [] || tail[0] != '"'
    ensures Object(st).Fatal? && Object(st).message == ObjectNeedsPair && Object(st).at.rest == tail
  {
    var x := [','] + tail;
    var more := MoreMembers(ms[1..]) + x;
    Completeness.ScanPast(st, '{', PrintMembers(ms) + x);
    var open := Scan(st);
    Completeness.MembersText(ms, x);
    Completeness.WfMembersRest(ms);
    Completeness.PairComplete(ms[0], open, more);
    var s := PairsWalk(ms[1..], Pair(open).after, x);
    CommaNeedsPair(s, tail);
  }

  /** A comma after the last item of an array, with no value after it, is
      fatal right after the comma, or right after a '-' that starts no
      value. */
  lemma ArrayTrailingComma(vs: seq<Tree>, st: Scanner, tail: string)
    requires Wf(Arr(vs)) && vs != [] && st.rest == "[" + (PrintItems(vs) + ([','] + tail))
    requires NoValue(tail)
    ensures Array(st).Fatal? && Array(st).message == ArrayNeedsValue && Array(st).at.rest == PastDash(tail)
  {
    var x := [','] + tail;
    var more := MoreItems(vs[1..]) + x;
    Completeness.ScanPast(st, '[', PrintItems(vs) + x);
    var open := Scan(st);
    Completeness.ItemsText(vs, x);
    Completeness.WfItemsRest(vs);
    Completeness.ValueComplete(vs[0], open, more);
    var s := ValuesWalk(vs[1..], Value(open).after, x);
    CommaNeedsValue(s, tail);
  }

  /** Where the members of an object can end: after no member, at anything
      but a '"'; after a member, at end of input or at a code point that is
      not a digit, '.', 'e', 'E' or ','. */
  predicate MembersStop(ms: seq<Member>, tail: string) {
    if ms == [] then tail == [] || tail[0] != '"'
    else Delimited(tail) && (tail == [] || tail[0] != ',')
  }

  /** Where the items of an array can end: after no item, on text `value`
      fails on; after an item, at end of input or at a code point that is
      not a digit, '.', 'e', 'E' or ','. */
  predicate ItemsStop(vs: seq<Tree>, tail: string) {
    if vs == [] then NoValue(tail)
    else Delimited(tail) && (tail == [] || tail[0] != ',')
  }

  /** The members of an object, up to the point where `object` looks for
      its closing '}'. */
  lemma MembersEnd(ms: seq<Member>, open: Scanner, tail: string)
    requires Wf(Obj(ms)) && open.rest == PrintMembers(ms) + tail && MembersStop(ms, tail)
    ensures var first := Pair(open);
      var members := if first.Match? then Pairs(first.after) else first;
      !members.Fatal? && members.after.rest == tail
  {
    if ms != [] {
      var more := MoreMembers(ms[1..]) + tail;
      Completeness.MembersText(ms, tail);
      Completeness.WfMembersRest(ms);
      Completeness.PairComplete(ms[0], open, more);
      var s := PairsWalk(ms[1..], Pair(open).after, tail);
      assert Pairs(s) == Match(s);
    }
  }

  /** The items of an array, up to the point where `array` looks for its
      closing ']'. With no item, a leading '-' stays consumed. */
  lemma ItemsEnd(vs: seq<Tree>, open: Scanner, tail: string)
    requires Wf(Arr(vs)) && open.rest == PrintItems(vs) + tail && ItemsStop(vs, tail)
    ensures var first := Value(open);
      var items := if first.Match? then Values(first.after) else first;
      !items.Fatal? && items.after.rest == if vs == [] then PastDash(tail) else tail
  {
    if vs != [] {
      var more := MoreItems(vs[1..]) + tail;
      Completeness.ItemsText(vs, tail);
      Completeness.WfItemsRest(vs);
      Completeness.ValueComplete(vs[0], open, more);
      var s := ValuesWalk(vs[1..], Value(open).after, tail);
      assert Values(s) == Match(s);
    } else {
      ValueFails(open);
    }
  }

  /** An object whose members are followed by anything but a '}' (end of
      input, whitespace, a ']', ...) is fatal there: the closing '}' is
      required. */
  lemma MissingObjectClose(ms: seq<Member>, st: Scanner, tail: string)
    requires Wf(Obj(ms)) && st.rest == "{" + (PrintMembers(ms) + tail)
    requires MembersStop(ms, tail) && (tail == [] || tail[0] != '}')
    ensures Object(st).Fatal? && Object(st).message == ObjectUnclosed && Object(st).at.rest == tail
  {
    Completeness.ScanPast(st, '{', PrintMembers(ms) + tail);
    MembersEnd(ms, Scan(st), tail);
  }

  /** An array whose items are followed by anything but a ']' (end of input,
      whitespace, a '}', ...) is fatal there: the closing ']' is required.
      With no item, a '-' that starts no value is consumed first. */
  lemma MissingArrayClose(vs: seq<Tree>, st: Scanner, tail: string)
    requires Wf(Arr(vs)) && st.rest == "[" + (PrintItems(vs) + tail)
    requires ItemsStop(vs, tail)
    requires var x := if vs == [] then PastDash(tail) else tail; x == [] || x[0] != ']'
    ensures Array(st).Fatal? && Array(st).message == ArrayUnclosed
    ensures Array(st).at.rest == if vs == [] then PastDash(tail) else tail
  {
    Completeness.ScanPast(st, '[', PrintItems(vs) + tail);
    ItemsEnd(vs, Scan(st), tail);
  }

  // Numbers.

  /** The integer part of a number, with its optional '-', leaves `number`
      in its fraction-and-exponent tail, right after the integer digits. */
  lemma IntegerPart(st: Scanner, negative: bool, w: string, x: string) returns (s: Scanner)
    requires WfNumber(w, [], NoExponent) && Completeness.NotDigit(x)
    requires st.rest == (if negative then "-" else "") + (w + x)
    ensures s.rest == x && Number(st) == NumberTail(s)
  {
    if negative {
      Completeness.ScanPast(st, '-', w + x);
    }
    var sign := Expect(st, Char('-')).after;
    Completeness.IntegerComplete(sign, w, x);
    s := if w == "0" then Scan(sign) else Digits(Nonzero(sign).after);
  }

  /** After a leading '0' no further digit belongs to the number: it ends
      right after the '0'. */
  lemma ZeroStops(st: Scanner, tail: string)
    requires st.rest == "0" + tail && tail != [] && IsDigit(tail[0])
    ensures Number(st) == Match(Scan(st))
  {
    Completeness.ScanPast(st, '0', tail);
  }

  /** A '.' after the integer part must be followed by a digit; otherwise
      `number` fails right after the '.'. */
  lemma FractionNeedsDigits(st: Scanner, negative: bool, w: string, tail: string)
    requires WfNumber(w, [], NoExponent) && Completeness.NotDigit(tail)
    requires st.rest == (if negative then "-" else "") + (w + (['.'] + tail))
    ensures Number(st).Fatal? && Number(st).message == FractionNeedsDigit && Number(st).at.rest == tail
  {
    var s := IntegerPart(st, negative, w, ['.'] + tail);
    Completeness.ScanPast(s, '.', tail);
  }

  /** An exponent marker, with or without a sign, must be followed by a
      digit; otherwise `number` fails where the digit should be. */
  lemma ExponentNeedsDigits(st: Scanner, negative: bool, w: string, f: string, marker: char, sign: string, tail: string)
    requires WfNumber(w, f, NoExponent) && (marker == 'e' || marker == 'E') && (sign == [] || sign == "+" || sign == "-")
    requires Completeness.NotDigit(tail) && (sign == [] ==> tail == [] || (tail[0] != '+' && tail[0] != '-'))
    requires st.rest == (if negative then "-" else "") + (w + (PrintFraction(f) + ([marker] + (sign + tail))))
    ensures Number(st).Fatal? && Number(st).message == ExponentNeedsDigit && Number(st).at.rest == tail
  {
    var x := PrintFraction(f) + ([marker] + (sign + tail));
    assert Completeness.NotDigit(x);
    var s := IntegerPart(st, negative, w, x);
    Completeness.FractionComplete(s, f, [marker] + (sign + tail));
    var e := Fraction(s).after;
    Completeness.ScanPast(e, marker, sign + tail);
    assert Exponent(e) == SignedDigits(Scan(e));
    if sign != [] {
      Completeness.ScanPast(Scan(e), sign[0], tail);
    }
  }

  // Strings.

  /** The body loop of `string` walks over well-formed body text unit by
      unit and ends up where that text ends. */
  lemma {:induction false} BodyWalk(st: Scanner, b: string, x: string) returns (s: Scanner)
    requires WfBody(b) && st.rest == b + x
    ensures s.rest == x && Body(st) == Body(s)
    decreases |b|
  {
    if b == [] {
      s := st;
    } else {
      var n := Completeness.BodyUnit(st, b, x);
      s := BodyWalk(Advance(st, n), b[n..], x);
    }
  }

  /** A string running into end of input is fatal there. */
  lemma StringAtEof(st: Scanner, b: string)
    requires WfBody(b) && st.rest == "\"" + b
    ensures String(st).Fatal? && String(st).message == StringUnclosed && String(st).at.rest == []
  {
    Completeness.ScanPast(st, '"', b);
    var s := BodyWalk(Scan(st), b, []);
    assert Body(s) == Match(s);
  }

  /** A body ending in a lone backslash at end of input: `escaped` consumes
      the backslash and finds no escape code, so `string` fails at end of
      input. */
  lemma BackslashAtEof(st: Scanner, b: string)
    requires WfBody(b) && st.rest == "\"" + (b + "\\")
    ensures String(st).Fatal? && String(st).message == StringUnclosed && String(st).at.rest == []
  {
    Completeness.ScanPast(st, '"', b + "\\");
    var s := BodyWalk(Scan(st), b, "\\");
    assert Body(s) == Match(Scan(s));
  }

  /** A backslash followed by an unknown escape code ends the body with only
      the backslash consumed, so `string` fails on the escape code, which is
      not the closing '"'. */
  lemma UnknownEscape(st: Scanner, b: string, c: char, x: string)
    requires WfBody(b) && st.rest == "\"" + (b + (['\\', c] + x)) && c !in SimpleEscapes && c != 'u'
    ensures String(st).Fatal? && String(st).message == StringUnclosed && String(st).at.rest == [c] + x
  {
    Completeness.ScanPast(st, '"', b + (['\\', c] + x));
    var s := BodyWalk(Scan(st), b, ['\\', c] + x);
    assert Body(s) == Match(Scan(s));
  }

  /** The hex digits after `\u`, when fewer than four: the run stops at the
      first code point that is not a hex digit, after at most three. */
  lemma HexStop(u: Scanner) returns (k: nat)
    requires !(|u.rest| >= 4 && forall i | 0 <= i < 4 :: IsHexDigit(u.rest[i]))
    ensures k < 4 && k <= |u.rest| && (forall i | 0 <= i < k :: IsHexDigit(u.rest[i]))
    ensures k == |u.rest| || !IsHexDigit(u.rest[k])
    ensures Unicode(u).Fatal? && Unicode(u).message == HexNeedsFour && Unicode(u).at.rest == u.rest[k..]
  {
    k := 4 - HexRun(u, 4).1;
    AdvanceRest(u, k);
  }

  /** At a backslash and 'u', the body loop hands over to the hex digits. */
  lemma UnicodeInBody(s: Scanner, x: string)
    requires s.rest == ['\\', 'u'] + x
    ensures Scan(Scan(s)).rest == x && Body(s) == (if Unicode(Scan(Scan(s))).Match? then Body(Unicode(Scan(Scan(s))).after) else Unicode(Scan(Scan(s))))
  {
    Completeness.ScanPast(s, '\\', ['u'] + x);
    Completeness.ScanPast(Scan(s), 'u', x);
  }

  /** `\u` without four hex digits after it is fatal at the first code point
      that is not a hex digit, after at most three. */
  lemma ShortUnicode(st: Scanner, b: string, x: string) returns (k: nat)
    requires WfBody(b) && st.rest == "\"" + (b + (['\\', 'u'] + x))
    requires !(|x| >= 4 && forall i | 0 <= i < 4 :: IsHexDigit(x[i]))
    ensures k < 4 && k <= |x| && (forall i | 0 <= i < k :: IsHexDigit(x[i])) && (k == |x| || !IsHexDigit(x[k]))
    ensures String(st).Fatal? && String(st).message == HexNeedsFour && String(st).at.rest == x[k..]
  {
    Completeness.ScanPast(st, '"', b + (['\\', 'u'] + x));
    var s := BodyWalk(Scan(st), b, ['\\', 'u'] + x);
    UnicodeInBody(s, x);
    k := HexStop(Scan(Scan(s)));
  }
}

=== FILE: completeness.dfy ===
/** Completeness of the rules with respect to the reference grammar: the
    text of every well-formed tree is matched by the rule for its kind, and
    the rule stops exactly where that text ends. Values need a delimiter (or
    end of input) after them, because a number followed by a digit, '.', 'e'
    or 'E' would read on. */
module Completeness {
  import opened Parser
  import opened Grammar
  import opened Syntax

  /** What may follow the digits of a fraction or exponent. */
  predicate NotDigit(tail: string) {
    tail == [] || !IsDigit(tail[0])
  }

  /** What may follow the last member or item of a list: a closing bracket,
      or end of input. */
  predicate Closing(tail: string) {
    tail == [] || tail[0] == '}' || tail[0] == ']'
  }

  // Scanning over text of known shape.

  /** `n` scans over at least `n` unread code points drop exactly `n`. */
  lemma Skip(st: Scanner, n: nat)
    requires n <= |st.rest|
    ensures Advance(st, n).rest == st.rest[n..]
  {
    AdvanceRest(st, n);
  }

  lemma ScanPast(st: Scanner, c: char, t: string)
    requires st.rest == [c] + t
    ensures Scan(st).rest == t
  {
  }

  // Regroupings of the printed text, kept apart from the rules.

  lemma Regroup(a: string, b: string, c: string)
    ensures a + b + c == a + (b + c)
  {
  }

  lemma Uncons(t: string, tail: string)
    requires t != []
    ensures t + tail == [t[0]] + (t[1..] + tail)
  {
  }

  lemma NumberText(negative: bool, w: string, f: string, e: ExponentPart, tail: string)
    ensures PrintNumber(negative, w, f, e) + tail
         == (if negative then "-" else "") + (w + (PrintFraction(f) + (PrintExponent(e) + tail)))
  {
    var sign := if negative then "-" else "";
    Regroup(sign + w + PrintFraction(f), PrintExponent(e), tail);
    Regroup(sign + w, PrintFraction(f), PrintExponent(e) + tail);
    Regroup(sign, w, PrintFraction(f) + (PrintExponent(e) + tail));
  }

  lemma ExponentText(e: ExponentPart, tail: string)
    requires e.Exp?
    ensures PrintExponent(e) + tail == [e.marker] + (e.sign + (e.digits + tail))
  {
    Regroup([e.marker] + e.sign, e.digits, tail);
    Regroup([e.marker], e.sign, e.digits + tail);
  }

  lemma StringText(b: string, tail: string)
    ensures "\"" + b + "\"" + tail == ['"'] + (b + ("\"" + tail))
  {
    Regroup("\"" + b, "\"", tail);
    Regroup("\"", b, "\"" + tail);
  }

  lemma MemberText(m: Member, tail: string)
    ensures PrintMember(m) + tail == "\"" + m.key + "\"" + ([':'] + (Print(m.value) + tail))
  {
    Regroup("\"" + m.key + "\":", Print(m.value), tail);
    Regroup("\"" + m.key, "\":", Print(m.value) + tail);
    Regroup("\"" + m.key, "\"", [':'] + (Print(m.value) + tail));
  }

  lemma BracketText(open: char, inner: string, close: char, tail: string)
    ensures [open] + inner + [close] + tail == [open] + (inner + ([close] + tail))
  {
    Regroup([open] + inner, [close], tail);
    Regroup([open], inner, [close] + tail);
  }

  lemma MembersText(ms: seq<Member>, tail: string)
    requires ms != []
    ensures PrintMembers(ms) + tail == PrintMember(ms[0]) + (MoreMembers(ms[1..]) + tail)
  {
    Regroup(PrintMember(ms[0]), MoreMembers(ms[1..]), tail);
  }

  lemma MoreMembersText(ms: seq<Member>, tail: string)
    requires ms != []
    ensures MoreMembers(ms) + tail == [','] + (PrintMember(ms[0]) + (MoreMembers(ms[1..]) + tail))
  {
    Regroup("," + PrintMember(ms[0]), MoreMembers(ms[1..]), tail);
    Regroup(",", PrintMember(ms[0]), MoreMembers(ms[1..]) + tail);
  }

  lemma ItemsText(vs: seq<Tree>, tail: string)
    requires vs != []
    ensures PrintItems(vs) + tail == Print(vs[0]) + (MoreItems(vs[1..]) + tail)
  {
    Regroup(Print(vs[0]), MoreItems(vs[1..]), tail);
  }

  lemma MoreItemsText(vs: seq<Tree>, tail: string)
    requires vs != []
    ensures MoreItems(vs) + tail == [','] + (Print(vs[0]) + (MoreItems(vs[1..]) + tail))
  {
    Regroup("," + Print(vs[0]), MoreItems(vs[1..]), tail);
    Regroup(",", Print(vs[0]), MoreItems(vs[1..]) + tail);
  }

  /** The members after the first of a well-formed object are well formed. */
  lemma WfMembersRest(ms: seq<Member>)
    requires Wf(Obj(ms)) && ms != []
    ensures WfBody(ms[0].key) && Wf(ms[0].value) && Wf(Obj(ms[1..]))
  {
    assert forall i | 0 <= i < |ms| - 1 :: ms[1..][i] == ms[i + 1];
  }

  lemma WfItemsRest(vs: seq<Tree>)
    requires Wf(Arr(vs)) && vs != []
    ensures Wf(vs[0]) && Wf(Arr(vs[1..]))
  {
    assert forall i | 0 <= i < |vs| - 1 :: vs[1..][i] == vs[i + 1];
  }

  // Numbers.

  lemma DigitsComplete(st: Scanner, d: string, tail: string)
    requires AllDigits(d) && st.rest == d + tail && NotDigit(tail)
    ensures Digits(st).rest == tail
  {
    assert st.rest[|d|..] == tail;
  }

  lemma FractionComplete(st: Scanner, f: string, tail: string)
    requires AllDigits(f) && st.rest == PrintFraction(f) + tail
    requires NotDigit(tail) && (f == [] ==> tail == [] || tail[0] != '.')
    ensures Fraction(st).Match? && Fraction(st).after.rest == tail
  {
    if f == [] {
      assert Fraction(st) == Match(st);
    } else {
      Regroup(".", f, tail);
      ScanPast(st, '.', f + tail);
      var dot := Scan(st);
      Uncons(f, tail);
      ScanPast(dot, f[0], f[1..] + tail);
      var d := Scan(dot);
      assert Fraction(st) == Match(Digits(d));
      DigitsComplete(d, f[1..], tail);
    }
  }

  /** The optional sign of an exponent is consumed when present. */
  lemma SignComplete(st: Scanner, sign: string, t: string)
    requires sign == [] || sign == "+" || sign == "-"
    requires st.rest == sign + t && t != [] && IsDigit(t[0])
    ensures var plus := Expect(st, Char('+'));
      (if plus.ok then plus.after else Expect(plus.after, Char('-')).after).rest == t
  {
    if sign == [] {
      assert st.rest == t;
    } else {
      ScanPast(st, sign[0], t);
    }
  }

  lemma SignedDigitsComplete(st: Scanner, sign: string, d: string, tail: string)
    requires (sign == [] || sign == "+" || sign == "-") && d != [] && AllDigits(d)
    requires st.rest == sign + (d + tail) && NotDigit(tail)
    ensures SignedDigits(st).Match? && SignedDigits(st).after.rest == tail
  {
    var plus := Expect(st, Char('+'));
    var signed := if plus.ok then plus.after else Expect(plus.after, Char('-')).after;
    SignComplete(st, sign, d + tail);
    Uncons(d, tail);
    ScanPast(signed, d[0], d[1..] + tail);
    assert SignedDigits(st) == Match(Digits(Scan(signed)));
    DigitsComplete(Scan(signed), d[1..], tail);
  }

  lemma ExponentComplete(st: Scanner, e: ExponentPart, tail: string)
    requires WfExponent(e) && st.rest == PrintExponent(e) + tail && NotDigit(tail)
    requires e == NoExponent ==> tail == [] || (tail[0] != 'e' && tail[0] != 'E')
    ensures Exponent(st).Match? && Exponent(st).after.rest == tail
  {
    if e.Exp? {
      ExponentText(e, tail);
      ScanPast(st, e.marker, e.sign + (e.digits + tail));
      assert Exponent(st) == SignedDigits(Scan(st));
      SignedDigitsComplete(Scan(st), e.sign, e.digits, tail);
    } else {
      assert Exponent(st) == Match(st);
    }
  }

  /** An exponent, or the delimiter after a number, never starts with a digit
      or a '.'. */
  lemma ExponentLead(e: ExponentPart, tail: string)
    requires WfExponent(e) && Delimited(tail)
    ensures NotDigit(PrintExponent(e) + tail)
    ensures PrintExponent(e) + tail == [] || (PrintExponent(e) + tail)[0] != '.'
  {
  }

  lemma NumberTailComplete(st: Scanner, f: string, e: ExponentPart, tail: string)
    requires AllDigits(f) && WfExponent(e) && Delimited(tail)
    requires st.rest == PrintFraction(f) + (PrintExponent(e) + tail)
    ensures NumberTail(st).Match? && NumberTail(st).after.rest == tail
  {
    ExponentLead(e, tail);
    FractionComplete(st, f, PrintExponent(e) + tail);
    ExponentComplete(Fraction(st).after, e, tail);
  }

  /** The integer part: "0" is one code point; otherwise a nonzero digit and
      the run of digits after it. */
  lemma IntegerComplete(st: Scanner, w: string, x: string)
    requires w != [] && AllDigits(w) && (w[0] == '0' ==> |w| == 1) && NotDigit(x)
    requires st.rest == w + x
    ensures w == "0" ==> Expect(st, Char('0')).ok && Scan(st).rest == x
    ensures w != "0" ==> !Expect(st, Char('0')).ok && Nonzero(st).Match? && Digits(Nonzero(st).after).rest == x
  {
    Uncons(w, x);
    ScanPast(st, w[0], w[1..] + x);
    if w != "0" {
      DigitsComplete(Scan(st), w[1..], x);
    }
  }

  lemma MagnitudeComplete(st: Scanner, w: string, f: string, e: ExponentPart, tail: string)
    requires WfNumber(w, f, e) && Delimited(tail)
    requires st.rest == w + (PrintFraction(f) + (PrintExponent(e) + tail))
    ensures Magnitude(st).Match? && Magnitude(st).after.rest == tail
  {
    var x := PrintFraction(f) + (PrintExponent(e) + tail);
    assert NotDigit(x);
    IntegerComplete(st, w, x);
    if w == "0" {
      NumberTailComplete(Scan(st), f, e, tail);
    } else {
      NumberTailComplete(Digits(Nonzero(st).after), f, e, tail);
    }
  }

  lemma NumberComplete(st: Scanner, negative: bool, w: string, f: string, e: ExponentPart, tail: string)
    requires WfNumber(w, f, e) && Delimited(tail)
    requires st.rest == PrintNumber(negative, w, f, e) + tail
    ensures Number(st).Match? && Number(st).after.rest == tail
  {
    var x := w + (PrintFraction(f) + (PrintExponent(e) + tail));
    NumberText(negative, w, f, e, tail);
    if negative {
      ScanPast(st, '-', x);
    }
    var sign := Expect(st, Char('-')).after;
    assert sign.rest == x;
    MagnitudeComplete(sign, w, f, e, tail);
  }

  // Strings.

  /** A plain code point of a string body is consumed by `nodquoteslash`. */
  lemma PlainUnit(st: Scanner)
    requires st.rest != [] && st.rest[0] != '"' && st.rest[0] != '\\'
    ensures Body(st) == Body(Advance(st, 1))
  {
    assert Advance(st, 1) == Scan(st);
  }

  /** A single-character escape is consumed by `escaped`. */
  lemma EscapeUnit(st: Scanner)
    requires |st.rest| >= 2 && st.rest[0] == '\\' && st.rest[1] in SimpleEscapes
    ensures Body(st) == Body(Advance(st, 2))
  {
    assert Escaped(st) == Match(Advance(st, 2));
  }

  /** `escaped` consumes a `\u` escape but for its last hex digit. */
  lemma UnicodeUnit(st: Scanner)
    requires |st.rest| >= 6 && st.rest[0] == '\\' && st.rest[1] == 'u'
    requires forall i | 2 <= i < 6 :: IsHexDigit(st.rest[i])
    ensures Body(st) == Body(Advance(st, 5))
  {
    assert Escaped(st) == Match(Advance(st, 5));
  }

  /** The length of the first unit of a well-formed string body: a plain
      code point, a simple escape, or a `\u` escape less its last hex digit,
      which the next unit takes as a plain code point. */
  lemma FirstUnit(b: string, x: string) returns (n: nat)
    requires WfBody(b) && b != []
    ensures 1 <= n <= |b| && WfBody(b[n..]) && (b + x)[n..] == b[n..] + x
    ensures n == 1 <==> b[0] != '\\'
    ensures n == 1 ==> (b + x)[0] != '"'
    ensures n == 2 <==> b[0] == '\\' && b[1] in SimpleEscapes
    ensures n == 2 ==> (b + x)[0] == '\\' && (b + x)[1] in SimpleEscapes
    ensures n == 5 ==> |b + x| >= 6 && (b + x)[0] == '\\' && (b + x)[1] == 'u'
    ensures n == 5 ==> forall i | 2 <= i < 6 :: IsHexDigit((b + x)[i])
    ensures n == 1 || n == 2 || n == 5
  {
    if b[0] != '\\' {
      n := 1;
    } else if b[1] in SimpleEscapes {
      n := 2;
    } else {
      n := 5;
      assert WfBody(b[5..]);
    }
    assert (b + x)[n..] == b[n..] + x;
  }

  /** One unit of a string body moves `Body` on by `n` code points. */
  lemma BodyUnit(st: Scanner, b: string, x: string) returns (n: nat)
    requires WfBody(b) && b != [] && st.rest == b + x
    ensures 1 <= n <= |b| && WfBody(b[n..])
    ensures Advance(st, n).rest == b[n..] + x && Body(st) == Body(Advance(st, n))
  {
    n := FirstUnit(b, x);
    if n == 1 {
      PlainUnit(st);
    } else if n == 2 {
      EscapeUnit(st);
    } else {
      UnicodeUnit(st);
    }
    Skip(st, n);
  }

  lemma {:induction false} BodyComplete(st: Scanner, b: string, tail: string)
    requires WfBody(b) && st.rest == b + ("\"" + tail)
    ensures Body(st).Match? && Body(st).after.rest == "\"" + tail
    decreases |b|
  {
    if b == [] {
      assert Escaped(st) == NoMatch(st);
    } else {
      var n := BodyUnit(st, b, "\"" + tail);
      BodyComplete(Advance(st, n), b[n..], tail);
    }
  }

  lemma StringComplete(st: Scanner, b: string, tail: string)
    requires WfBody(b) && st.rest == "\"" + b + "\"" + tail
    ensures String(st).Match? && String(st).after.rest == tail
  {
    StringText(b, tail);
    ScanPast(st, '"', b + ("\"" + tail));
    BodyComplete(Scan(st), b, tail);
    var body := Body(Scan(st));
    ScanPast(body.after, '"', tail);
  }

  lemma KeywordComplete(st: Scanner, word: string, message: string, tail: string)
    requires word != [] && st.rest == word + tail
    ensures Keyword(st, word, message).Match? && Keyword(st, word, message).after.rest == tail
  {
    assert st.rest[..|word|] == word;
    Skip(st, |word|);
  }

  // Values, objects and arrays.

  /** `value` hands a code point that starts an object, array or keyword to
      those alternatives with nothing consumed. */
  lemma ValueToComposite(st: Scanner)
    requires st.rest != [] && st.rest[0] in "{[tfn"
    ensures Value(st) == Composite(st)
  {
  }

  /** After a '-' not followed by a digit, `value` tries the remaining
      alternatives with the '-' consumed. */
  lemma ValueToSignedComposite(st: Scanner)
    requires |st.rest| >= 2 && st.rest[0] == '-' && st.rest[1] in "{[tfn"
    ensures Value(st) == Composite(Scan(st))
  {
  }

  lemma CompositeToArray(st: Scanner)
    requires st.rest != [] && st.rest[0] == '['
    ensures Composite(st) == Array(st)
  {
    assert Object(st) == NoMatch(st);
  }

  lemma ValueComplete(v: Tree, st: Scanner, tail: string)
    requires Wf(v) && st.rest == Print(v) + tail && Delimited(tail)
    ensures Value(st).Match? && Value(st).after.rest == tail
    decreases v, 2
  {
    if v.Str? {
      StringComplete(st, v.body, tail);
    } else if v.Num? {
      NumberComplete(st, v.negative, v.whole, v.fraction, v.exponent, tail);
      assert st.rest[0] != '"';
    } else if v.Signed? {
      var x := v.inner;
      Regroup("-", Print(x), tail);
      assert Print(x)[0] in "{[tfn";
      ValueToSignedComposite(st);
      ScanPast(st, '-', Print(x) + tail);
      CompositeComplete(x, Scan(st), tail);
    } else {
      assert Print(v)[0] in "{[tfn";
      ValueToComposite(st);
      CompositeComplete(v, st, tail);
    }
  }

  lemma CompositeComplete(v: Tree, st: Scanner, tail: string)
    requires Unsigned(v) && Wf(v) && st.rest == Print(v) + tail
    ensures Composite(st).Match? && Composite(st).after.rest == tail
    decreases v, 1
  {
    if v.Obj? {
      assert Composite(st) == Object(st);
      ObjectComplete(v.members, st, tail);
    } else if v.Arr? || v.DashArr? {
      CompositeToArray(st);
      if v.Arr? {
        ArrayComplete(v.items, st, tail);
      } else {
        DashComplete(st, tail);
      }
    } else {
      assert Composite(st) == Literal(st);
      LiteralComplete(v, st, tail);
    }
  }

  lemma LiteralComplete(v: Tree, st: Scanner, tail: string)
    requires (v.True? || v.False? || v.Null?) && st.rest == Print(v) + tail
    ensures Literal(st).Match? && Literal(st).after.rest == tail
  {
    match v
    case True =>
      KeywordComplete(st, "true", TrueBroken, tail);
    case False =>
      KeywordComplete(st, "false", FalseBroken, tail);
    case Null =>
      KeywordComplete(st, "null", NullBroken, tail);
  }

  lemma ObjectComplete(ms: seq<Member>, st: Scanner, tail: string)
    requires Wf(Obj(ms)) && st.rest == "{" + PrintMembers(ms) + "}" + tail
    ensures Object(st).Match? && Object(st).after.rest == tail
    decreases ms, 0
  {
    BracketText('{', PrintMembers(ms), '}', tail);
    ScanPast(st, '{', PrintMembers(ms) + ("}" + tail));
    var open := Scan(st);
    if ms != [] {
      var more := MoreMembers(ms[1..]) + ("}" + tail);
      MembersText(ms, "}" + tail);
      WfMembersRest(ms);
      PairComplete(ms[0], open, more);
      PairsComplete(ms[1..], Pair(open).after, "}" + tail);
    }
  }

  lemma PairsComplete(ms: seq<Member>, st: Scanner, tail: string)
    requires Wf(Obj(ms)) && st.rest == MoreMembers(ms) + tail && Closing(tail)
    ensures Pairs(st).Match? && Pairs(st).after.rest == tail
    decreases ms, 0
  {
    if ms != [] {
      var more := MoreMembers(ms[1..]) + tail;
      MoreMembersText(ms, tail);
      ScanPast(st, ',', PrintMember(ms[0]) + more);
      WfMembersRest(ms);
      PairComplete(ms[0], Scan(st), more);
      PairsComplete(ms[1..], Pair(Scan(st)).after, tail);
    }
  }

  lemma PairComplete(m: Member, st: Scanner, tail: string)
    requires WfBody(m.key) && Wf(m.value) && st.rest == PrintMember(m) + tail && Delimited(tail)
    ensures Pair(st).Match? && Pair(st).after.rest == tail
    decreases m, 0
  {
    var x := [':'] + (Print(m.value) + tail);
    MemberText(m, tail);
    StringComplete(st, m.key, x);
    var key := String(st);
    ScanPast(key.after, ':', Print(m.value) + tail);
    ValueComplete(m.value, Scan(key.after), tail);
  }

  lemma ArrayComplete(vs: seq<Tree>, st: Scanner, tail: string)
    requires Wf(Arr(vs)) && st.rest == "[" + PrintItems(vs) + "]" + tail
    ensures Array(st).Match? && Array(st).after.rest == tail
    decreases vs, 0
  {
    BracketText('[', PrintItems(vs), ']', tail);
    ScanPast(st, '[', PrintItems(vs) + ("]" + tail));
    var open := Scan(st);
    if vs != [] {
      var more := MoreItems(vs[1..]) + ("]" + tail);
      ItemsText(vs, "]" + tail);
      WfItemsRest(vs);
      ValueComplete(vs[0], open, more);
      ValuesComplete(vs[1..], Value(open).after, "]" + tail);
    }
  }

  /** "[-]": the value inside fails after consuming the '-'. */
  lemma DashComplete(st: Scanner, tail: string)
    requires st.rest == "[-]" + tail
    ensures Array(st).Match? && Array(st).after.rest == tail
  {
    var open := Scan(st);
    assert open.rest == "-]" + tail;
    assert Value(open) == NoMatch(Scan(open));
  }

  lemma ValuesComplete(vs: seq<Tree>, st: Scanner, tail: string)
    requires Wf(Arr(vs)) && st.rest == MoreItems(vs) + tail && Closing(tail)
    ensures Values(st).Match? && Values(st).after.rest == tail
    decreases vs, 0
  {
    if vs != [] {
      var more := MoreItems(vs[1..]) + tail;
      MoreItemsText(vs, tail);
      ScanPast(st, ',', Print(vs[0]) + more);
      WfItemsRest(vs);
      ValueComplete(vs[0], Scan(st), more);
      ValuesComplete(vs[1..], Value(Scan(st)).after, tail);
    }
  }
}

=== FILE: grammar.dfy ===
/** Model of the grammar engine in json.c: one rule per production, all
    working on the shared scanner state and returning a three-way outcome.

    `NoMatch` is the C routine returning false; it carries the state because
    two rules (`number` and `escaped`) consume a code point before giving up.
    `Fatal` replaces the call to `error`, which prints a diagnostic and exits:
    it records the scanner state at that moment and the message, and every
    caller hands it up unchanged. */
module Grammar {
  import opened Parser

  datatype Outcome =
    | NoMatch(after: Scanner)
    | Match(after: Scanner)
    | Fatal(at: Scanner, message: string)
  {
    /** The state the rule left the scanner in. */
    function Stop(): Scanner {
      if Fatal? then at else after
    }

    /** The diagnostic `error` prints for a fatal outcome. */
    function Report(): Diagnostic
      requires Fatal?
    {
      Error(at, message)
    }
  }

  // The messages passed to `error`, verbatim.
  const EofExpected := "json() expected EOF"
  const ObjectNeedsPair := "object() expected another pair after ','"
  const ObjectUnclosed := "object() expected a pair or '}' to end object definition"
  const PairNeedsValue := "pair() expected a value after ':'"
  const PairNeedsColon := "pair() expected a ':' after object name"
  const ArrayNeedsValue := "array() expected another value after ','"
  const ArrayUnclosed := "array() expected a ']' to end array"
  const StringUnclosed := "string() expected a '\"' to end a string"
  const FractionNeedsDigit := "number() expected an integer after '.'"
  const ExponentNeedsDigit := "number() expected a number after exponent character"
  const HexNeedsFour := "escaped() expected exactly 4 hex digits after \"\\u\""
  const TrueBroken := "true() unexpected token"
  const FalseBroken := "false() unexpected token"
  const NullBroken := "null() unexpected token"

  /** The single-character escapes accepted after a backslash, in the order
      `escaped` tries them. */
  const SimpleEscapes := "\"\\/bfnrt"

  /** A rule never moves the scanner backwards. */
  predicate Progress(st: Scanner, r: Outcome) {
    |r.Stop().rest| <= |st.rest|
  }

  /** Length of the longest common prefix of `a` and `b`. */
  function Common(a: seq<char>, b: seq<char>): (n: nat)
    ensures n <= |a| && n <= |b|
    ensures a[..n] == b[..n]
    ensures n < |a| && n < |b| ==> a[n] != b[n]
  {
    if a != [] && b != [] && a[0] == b[0] then 1 + Common(a[1..], b[1..]) else 0
  }

  /** A chain `expect(a) || expect(b) || ...`: the first option equal to the
      lookahead is consumed. */
  function ExpectFirst(st: Scanner, options: seq<char>): (p: Probe)
    ensures p.ok <==> st.rest != [] && st.rest[0] in options
    ensures p.ok ==> p.after == Scan(st)
    ensures !p.ok ==> p.after == st
  {
    if options == [] then Probe(false, st)
    else
      var p := Expect(st, Char(options[0]));
      if p.ok then p else ExpectFirst(p.after, options[1..])
  }

  /** A chain `expect(a) && expect(b) && ...`: code points are consumed as
      long as they agree with `word`; the chain stops at the first mismatch. */
  function ExpectAll(st: Scanner, word: seq<char>): (p: Probe)
    ensures p.ok <==> Common(word, st.rest) == |word|
    ensures p.after == Advance(st, Common(word, st.rest))
    ensures |p.after.rest| == |st.rest| - Common(word, st.rest)
    decreases |word|
  {
    if word == [] then Probe(true, st)
    else
      var p := Expect(st, Char(word[0]));
      if !p.ok then p else ExpectAll(p.after, word[1..])
  }

  /** `digit`. */
  function Digit(st: Scanner): (r: Outcome)
    ensures r.Match? <==> st.rest != [] && IsDigit(st.rest[0])
    ensures r.Match? ==> r.after == Scan(st)
    ensures r.NoMatch? ==> r.after == st
    ensures !r.Fatal?
  {
    if Lookahead(st).Char? && IsDigit(Lookahead(st).c) then Match(Scan(st)) else NoMatch(st)
  }

  /** `nonzero`. */
  function Nonzero(st: Scanner): (r: Outcome)
    ensures r.Match? <==> st.rest != [] && IsDigit(st.rest[0]) && st.rest[0] != '0'
    ensures r.Match? ==> r.after == Scan(st)
    ensures r.NoMatch? ==> r.after == st
    ensures !r.Fatal?
  {
    if Lookahead(st).Char? && IsDigit(Lookahead(st).c) && Lookahead(st).c != '0' then Match(Scan(st))
    else NoMatch(st)
  }

  /** The digit loops of `number`: they consume the whole run of digits at the
      lookahead and nothing else. */
  function Digits(st: Scanner): (r: Scanner)
    ensures Behind(st, r)
    ensures forall i | 0 <= i < |st.rest| - |r.rest| :: IsDigit(st.rest[i])
    ensures r.rest == [] || !IsDigit(r.rest[0])
    decreases |st.rest|
  {
    var d := Digit(st);
    if d.Match? then Digits(d.after) else st
  }

  /** The optional fraction of `number`: once a '.' is consumed at least one
      digit must follow. */
  function Fraction(st: Scanner): (r: Outcome)
    ensures Progress(st, r)
    ensures !r.NoMatch?
    ensures r.Fatal? <==> st.rest != [] && st.rest[0] == '.' && (|st.rest| == 1 || !IsDigit(st.rest[1]))
    ensures r.Fatal? ==> r.at == Scan(st) && r.message == FractionNeedsDigit
    ensures r.Match? && (st.rest == [] || st.rest[0] != '.') ==> r.after == st
    ensures r.Match? && st.rest != [] && st.rest[0] == '.' ==> |r.after.rest| + 2 <= |st.rest|
  {
    var dot := Expect(st, Char('.'));
    if !dot.ok then Match(st)
    else
      var d := Digit(dot.after);
      if d.Match? then Match(Digits(d.after)) else Fatal(dot.after, FractionNeedsDigit)
  }

  /** The optional exponent of `number`: after 'e' or 'E' and an optional sign
      at least one digit must follow. */
  function Exponent(st: Scanner): (r: Outcome)
    ensures Progress(st, r)
    ensures !r.NoMatch?
    ensures r.Match? && (st.rest == [] || (st.rest[0] != 'e' && st.rest[0] != 'E')) ==> r.after == st
    ensures r.Fatal? ==> st.rest != [] && (st.rest[0] == 'e' || st.rest[0] == 'E')
    ensures r.Fatal? ==> r.message == ExponentNeedsDigit
    ensures r.Match? && st.rest != [] && (st.rest[0] == 'e' || st.rest[0] == 'E') ==>
      |r.after.rest| + 2 <= |st.rest|
  {
    var e := Expect(st, Char('e'));
    var marker := if e.ok then e else Expect(e.after, Char('E'));
    if !marker.ok then Match(st) else SignedDigits(marker.after)
  }

  /** What `number` demands after the exponent marker: an optional sign, then
      at least one digit. */
  function SignedDigits(st: Scanner): (r: Outcome)
    ensures Progress(st, r)
    ensures !r.NoMatch?
    ensures r.Fatal? ==> r.message == ExponentNeedsDigit
    ensures r.Match? ==> |r.after.rest| < |st.rest|
  {
    var plus := Expect(st, Char('+'));
    var signed := if plus.ok then plus.after else Expect(plus.after, Char('-')).after;
    var d := Digit(signed);
    if d.Match? then Match(Digits(d.after)) else Fatal(signed, ExponentNeedsDigit)
  }

  /** Fraction then exponent, after the integer part of a number. */
  function NumberTail(st: Scanner): (r: Outcome)
    ensures Progress(st, r)
    ensures !r.NoMatch?
    ensures r.Fatal? ==> r.message == FractionNeedsDigit || r.message == ExponentNeedsDigit
    ensures r.Match? && (st.rest == [] || st.rest[0] !in ".eE") ==> r.after == st
  {
    var f := Fraction(st);
    if f.Fatal? then f else Exponent(f.after)
  }

  /** A number starts at the front of `t`: a digit, possibly after one '-'. */
  predicate StartsNumber(t: seq<char>) {
    (t != [] && IsDigit(t[0])) || (|t| >= 2 && t[0] == '-' && IsDigit(t[1]))
  }

  /** `number`. A leading '-' is consumed whether or not a digit follows;
      without a digit the rule fails with the '-' already consumed. */
  function Number(st: Scanner): (r: Outcome)
    ensures Progress(st, r)
    ensures r.NoMatch? <==> !StartsNumber(st.rest)
    ensures r.NoMatch? && st.rest != [] && st.rest[0] == '-' ==> r.after == Scan(st)
    ensures r.NoMatch? && (st.rest == [] || st.rest[0] != '-') ==> r.after == st
    ensures r.Match? ==> |r.after.rest| < |st.rest|
  {
    Magnitude(Expect(st, Char('-')).after)
  }

  /** The rest of `number` after the optional '-': a lone '0' or a nonzero
      digit followed by digits, then fraction and exponent. */
  function Magnitude(st: Scanner): (r: Outcome)
    ensures Progress(st, r)
    ensures r.NoMatch? <==> st.rest == [] || !IsDigit(st.rest[0])
    ensures r.NoMatch? ==> r.after == st
    ensures r.Match? ==> |r.after.rest| < |st.rest|
  {
    var zero := Expect(st, Char('0'));
    if zero.ok then NumberTail(zero.after)
    else
      var lead := Nonzero(st);
      if lead.Match? then NumberTail(Digits(lead.after)) else NoMatch(st)
  }

  /** `nodquoteslash`: any code point but '"' and '\', never end of input. */
  function NoDQuoteSlash(st: Scanner): (r: Outcome)
    ensures r.Match? <==> st.rest != [] && st.rest[0] != '"' && st.rest[0] != '\\'
    ensures r.Match? ==> r.after == Scan(st)
    ensures r.NoMatch? ==> r.after == st
    ensures !r.Fatal?
  {
    var p := NoExpect(st, "\\\"");
    if p.ok then Match(p.after) else NoMatch(st)
  }

  /** The hex-digit loop of `escaped`, which decrements its count before
      each scan and stops on a non-hex lookahead or when the count reaches 0;
      returns the state and the final count. With `count` hex digits ahead
      the count reaches 0 after only `count - 1` scans: the last digit stays
      in the lookahead. */
  function HexRun(st: Scanner, count: nat): (r: (Scanner, nat))
    requires 1 <= count
    ensures r.1 <= count
    ensures r.1 == 0 <==> count <= |st.rest| && forall i | 0 <= i < count :: IsHexDigit(st.rest[i])
    ensures r.1 == 0 ==> r.0 == Advance(st, count - 1)
    ensures r.1 != 0 ==> r.0 == Advance(st, count - r.1) && (r.0.rest == [] || !IsHexDigit(r.0.rest[0]))
    ensures r.1 != 0 ==> count - r.1 <= |st.rest| && forall i | 0 <= i < count - r.1 :: IsHexDigit(st.rest[i])
    decreases count
  {
    if Lookahead(st).Char? && IsHexDigit(Lookahead(st).c) then
      if count - 1 != 0 then HexRun(Scan(st), count - 1) else (st, 0)
    else (st, count)
  }

  /** `escaped`. A backslash commits only partly: an unknown escape code
      makes the rule fail with the backslash consumed, while `\u` without
      four hex digits is fatal. */
  function Escaped(st: Scanner): (r: Outcome)
    ensures Progress(st, r)
    ensures r.NoMatch? <==> Lookahead(st) != Char('\\') || |st.rest| == 1 || st.rest[1] !in SimpleEscapes + "u"
    ensures r.NoMatch? && Lookahead(st) != Char('\\') ==> r.after == st
    ensures r.NoMatch? && Lookahead(st) == Char('\\') ==> r.after == Scan(st)
    ensures r.Match? && st.rest[1] in SimpleEscapes ==> r.after == Advance(st, 2)
    ensures r.Match? && st.rest[1] == 'u' ==>
      |st.rest| >= 6 && (forall i | 2 <= i < 6 :: IsHexDigit(st.rest[i])) && r.after == Advance(st, 5)
    ensures r.Fatal? <==> (Lookahead(st) == Char('\\') && |st.rest| >= 2 && st.rest[1] == 'u' &&
                           !(|st.rest| >= 6 && forall i | 2 <= i < 6 :: IsHexDigit(st.rest[i])))
    ensures r.Fatal? ==> r.message == HexNeedsFour
  {
    var slash := Expect(st, Char('\\'));
    if !slash.ok then NoMatch(st)
    else
      EscapeCode(slash.after)
  }

  /** What `escaped` does after the backslash: one of the single-character
      codes, or 'u' and the hex digits. */
  function EscapeCode(st: Scanner): (r: Outcome)
    ensures Progress(st, r)
    ensures r.NoMatch? <==> st.rest == [] || st.rest[0] !in SimpleEscapes + "u"
    ensures r.NoMatch? ==> r.after == st
    ensures r.Match? && st.rest[0] in SimpleEscapes ==> r.after == Advance(st, 1)
    ensures r.Match? && st.rest[0] == 'u' ==>
      |st.rest| >= 5 && (forall i | 1 <= i < 5 :: IsHexDigit(st.rest[i])) && r.after == Advance(st, 4)
    ensures r.Fatal? <==> (st.rest != [] && st.rest[0] == 'u' &&
                           !(|st.rest| >= 5 && forall i | 1 <= i < 5 :: IsHexDigit(st.rest[i])))
    ensures r.Fatal? ==> r.message == HexNeedsFour
  {
    var simple := ExpectFirst(st, SimpleEscapes);
    if simple.ok then Match(simple.after)
    else
      var u := Expect(st, Char('u'));
      if !u.ok then NoMatch(st)
      else
        Unicode(u.after)
  }

  /** The hex digits after `\u`. Four are required, but only three are
      consumed: the fourth is left in the lookahead. */
  function Unicode(st: Scanner): (r: Outcome)
    ensures Progress(st, r)
    ensures !r.NoMatch?
    ensures r.Match? <==> |st.rest| >= 4 && forall i | 0 <= i < 4 :: IsHexDigit(st.rest[i])
    ensures r.Match? ==> r.after == Advance(st, 3)
    ensures r.Fatal? ==> r.message == HexNeedsFour && r.at == Advance(st, 4 - HexRun(st, 4).1)
  {
    var hex := HexRun(st, 4);
    if hex.1 != 0 then Fatal(hex.0, HexNeedsFour) else Match(hex.0)
  }

  /** The body loop of `string`, trying `nodquoteslash` and then `escaped`
      on each round. It ends
      when neither alternative matches, possibly after `escaped` consumed a
      stray backslash. */
  function Body(st: Scanner): (r: Outcome)
    ensures Progress(st, r)
    ensures !r.NoMatch?
    ensures r.Fatal? ==> r.message == HexNeedsFour
    decreases |st.rest|
  {
    var plain := NoDQuoteSlash(st);
    if plain.Match? then Body(plain.after)
    else
      var esc := Escaped(plain.after);
      if esc.Match? then Body(esc.after)
      else if esc.Fatal? then esc
      else Match(esc.after)
  }

  /** `string`: commits on the opening '"'. */
  function String(st: Scanner): (r: Outcome)
    ensures Progress(st, r)
    ensures r.NoMatch? <==> Lookahead(st) != Char('"')
    ensures r.NoMatch? ==> r.after == st
    ensures r.Match? ==> |r.after.rest| + 2 <= |st.rest|
    ensures r.Fatal? ==> r.message == StringUnclosed || r.message == HexNeedsFour
  {
    var open := Expect(st, Char('"'));
    if !open.ok then NoMatch(st)
    else
      var body := Body(open.after);
      if body.Fatal? then body
      else
        var close := Expect(body.after, Char('"'));
        if close.ok then Match(close.after) else Fatal(body.after, StringUnclosed)
  }

  /** The shape shared by `_true`, `_false` and `_null`: commit on the first
      letter, then every further letter is required. */
  function Keyword(st: Scanner, word: string, message: string): (r: Outcome)
    requires word != []
    ensures Progress(st, r)
    ensures r.NoMatch? <==> Lookahead(st) != Char(word[0])
    ensures r.NoMatch? ==> r.after == st
    ensures r.Match? <==> |word| <= |st.rest| && st.rest[..|word|] == word
    ensures r.Match? ==> r.after == Advance(st, |word|) && |r.after.rest| == |st.rest| - |word|
    ensures r.Fatal? ==> r.at == Advance(st, Common(word, st.rest)) && r.message == message
  {
    var first := Expect(st, Char(word[0]));
    if !first.ok then NoMatch(st)
    else
      var tail := ExpectAll(first.after, word[1..]);
      if tail.ok then Match(tail.after) else Fatal(tail.after, message)
  }

  /** `_true`. */
  function TrueLiteral(st: Scanner): (r: Outcome)
    ensures r.NoMatch? <==> Lookahead(st) != Char('t')
    ensures r.NoMatch? ==> r.after == st
    ensures r.Match? <==> 4 <= |st.rest| && st.rest[..4] == "true"
    ensures r.Match? ==> r.after == Advance(st, 4) && |r.after.rest| == |st.rest| - 4
    ensures r.Fatal? ==> r.at == Advance(st, Common("true", st.rest)) && r.message == TrueBroken
  {
    Keyword(st, "true", TrueBroken)
  }

  /** `_false`. */
  function FalseLiteral(st: Scanner): (r: Outcome)
    ensures r.NoMatch? <==> Lookahead(st) != Char('f')
    ensures r.NoMatch? ==> r.after == st
    ensures r.Match? <==> 5 <= |st.rest| && st.rest[..5] == "false"
    ensures r.Match? ==> r.after == Advance(st, 5) && |r.after.rest| == |st.rest| - 5
    ensures r.Fatal? ==> r.at == Advance(st, Common("false", st.rest)) && r.message == FalseBroken
  {
    Keyword(st, "false", FalseBroken)
  }

  /** `_null`. */
  function NullLiteral(st: Scanner): (r: Outcome)
    ensures r.NoMatch? <==> Lookahead(st) != Char('n')
    ensures r.NoMatch? ==> r.after == st
    ensures r.Match? <==> 4 <= |st.rest| && st.rest[..4] == "null"
    ensures r.Match? ==> r.after == Advance(st, 4) && |r.after.rest| == |st.rest| - 4
    ensures r.Fatal? ==> r.at == Advance(st, Common("null", st.rest)) && r.message == NullBroken
  {
    Keyword(st, "null", NullBroken)
  }

  /** `value`: ordered choice over seven alternatives, each tried from the
      state the previous one left. */
  function Value(st: Scanner): (r: Outcome)
    ensures Progress(st, r)
    ensures r.NoMatch? && (st.rest == [] || st.rest[0] != '-') ==> r.after == st
    ensures r.NoMatch? && st.rest != [] && st.rest[0] == '-' ==> r.after == Scan(st)
    ensures r.Match? ==> |r.after.rest| < |st.rest|
    decreases |st.rest|, 2
  {
    var r1 := String(st);
    if !r1.NoMatch? then r1
    else
      var r2 := Number(r1.after);
      if !r2.NoMatch? then r2
      else Composite(r2.after)
  }

  /** The last five alternatives of `value`: object, array, true, false,
      null. */
  function Composite(st: Scanner): (r: Outcome)
    ensures Progress(st, r)
    ensures r.NoMatch? <==> st.rest == [] || st.rest[0] !in "{[tfn"
    ensures r.NoMatch? ==> r.after == st
    ensures r.Match? ==> |r.after.rest| < |st.rest|
    decreases |st.rest|, 1
  {
    var r3 := Object(st);
    if !r3.NoMatch? then r3
    else
      var r4 := Array(r3.after);
      if !r4.NoMatch? then r4
      else Literal(r4.after)
  }

  /** The three keyword alternatives of `value`, in order. */
  function Literal(st: Scanner): (r: Outcome)
    ensures Progress(st, r)
    ensures r.NoMatch? <==> st.rest == [] || st.rest[0] !in "tfn"
    ensures r.NoMatch? ==> r.after == st
    ensures r.Match? ==> |r.after.rest| < |st.rest|
  {
    var r5 := TrueLiteral(st);
    if !r5.NoMatch? then r5
    else
      var r6 := FalseLiteral(r5.after);
      if !r6.NoMatch? then r6
      else NullLiteral(r6.after)
  }

  /** `object`: commits on '{'. */
  function Object(st: Scanner): (r: Outcome)
    ensures Progress(st, r)
    ensures r.NoMatch? <==> Lookahead(st) != Char('{')
    ensures r.NoMatch? ==> r.after == st
    ensures r.Match? ==> |r.after.rest| + 2 <= |st.rest|
    decreases |st.rest|, 0
  {
    var open := Expect(st, Char('{'));
    if !open.ok then NoMatch(st)
    else
      var first := Pair(open.after);
      var members := if first.Match? then Pairs(first.after) else first;
      if members.Fatal? then members
      else
        var close := Expect(members.after, Char('}'));
        if close.ok then Match(close.after) else Fatal(members.after, ObjectUnclosed)
  }

  /** The separator loop of `object`: while a ',' comes, a pair must
      follow it, or the object is fatal. */
  function Pairs(st: Scanner): (r: Outcome)
    ensures Progress(st, r)
    ensures !r.NoMatch?
    decreases |st.rest|, 0
  {
    var comma := Expect(st, Char(','));
    if !comma.ok then Match(st)
    else
      var p := Pair(comma.after);
      if p.Match? then Pairs(p.after)
      else if p.Fatal? then p
      else Fatal(p.after, ObjectNeedsPair)
  }

  /** `pair`: commits once its key string matched. */
  function Pair(st: Scanner): (r: Outcome)
    ensures Progress(st, r)
    ensures r.NoMatch? <==> Lookahead(st) != Char('"')
    ensures r.NoMatch? ==> r.after == st
    ensures r.Match? ==> |r.after.rest| < |st.rest|
    decreases |st.rest|, 0
  {
    var key := String(st);
    if !key.Match? then key
    else
      var colon := Expect(key.after, Char(':'));
      if !colon.ok then Fatal(key.after, PairNeedsColon)
      else
        var v := Value(colon.after);
        if v.NoMatch? then Fatal(v.after, PairNeedsValue) else v
  }

  /** `array`: commits on '['. */
  function Array(st: Scanner): (r: Outcome)
    ensures Progress(st, r)
    ensures r.NoMatch? <==> Lookahead(st) != Char('[')
    ensures r.NoMatch? ==> r.after == st
    ensures r.Match? ==> |r.after.rest| + 2 <= |st.rest|
    decreases |st.rest|, 0
  {
    var open := Expect(st, Char('['));
    if !open.ok then NoMatch(st)
    else
      var first := Value(open.after);
      var items := if first.Match? then Values(first.after) else first;
      if items.Fatal? then items
      else
        var close := Expect(items.after, Char(']'));
        if close.ok then Match(close.after) else Fatal(items.after, ArrayUnclosed)
  }

  /** The separator loop of `array`: while a ',' comes, a value must follow
      it, or the array is fatal. */
  function Values(st: Scanner): (r: Outcome)
    ensures Progress(st, r)
    ensures !r.NoMatch?
    decreases |st.rest|, 0
  {
    var comma := Expect(st, Char(','));
    if !comma.ok then Match(st)
    else
      var v := Value(comma.after);
      if v.Match? then Values(v.after)
      else if v.Fatal? then v
      else Fatal(v.after, ArrayNeedsValue)
  }

  /** `json`: try an object, else an array, ignoring whether either matched,
      then demand end of input. It never fails softly, and a match has read
      the whole input. */
  function Json(st: Scanner): (r: Outcome)
    ensures Progress(st, r)
    ensures !r.NoMatch?
    ensures r.Match? ==> r.after.rest == []
  {
    var root := Root(st);
    if root.Fatal? then root
    else
      var eof := Expect(root.after, EOF);
      if eof.ok then Match(eof.after) else Fatal(root.after, EofExpected)
  }

  /** The root of `json`: an object, or failing that an array; the result
      of the two is discarded, so no match is no error. */
  function Root(st: Scanner): (r: Outcome)
    ensures Progress(st, r)
    ensures r.NoMatch? <==> st.rest == [] || (st.rest[0] != '{' && st.rest[0] != '[')
    ensures r.NoMatch? ==> r.after == st
  {
    var o := Object(st);
    if o.NoMatch? then Array(o.after) else o
  }

  /** The whole run: main.c scans once, then calls `json`. */
  function Run(input: seq<char>): (r: Outcome)
    ensures !r.NoMatch?
    ensures r.Match? ==> r.after.rest == []
    ensures input == [] ==> r.Match?
  {
    Json(Initial(input))
  }
}

=== FILE: language.dfy ===
/** The language `json` accepts, stated against the reference grammar: a run
    succeeds exactly on the empty input and on the text of a well-formed
    object or array, and text after a complete document is rejected at its
    first code point. */
module Language {
  import opened Parser
  import opened Grammar
  import opened Syntax
  import Completeness
  import Soundness

  /** The text of some well-formed document. */
  ghost predicate DocumentText(input: string) {
    exists d: Tree :: Wf(d) && Document(d) && Print(d) == input
  }

  /** The root of `json` matches the text of every well-formed document and
      stops right after it. */
  lemma RootComplete(d: Tree, st: Scanner, tail: string)
    requires Wf(d) && Document(d) && st.rest == Print(d) + tail
    ensures Root(st).Match? && Root(st).after.rest == tail
  {
    if d.Obj? {
      Completeness.ObjectComplete(d.members, st, tail);
    } else {
      assert Object(st) == NoMatch(st);
      if d.Arr? {
        Completeness.ArrayComplete(d.items, st, tail);
      } else {
        Completeness.DashComplete(st, tail);
      }
    }
  }

  /** What the root of `json` matches is the text of a well-formed
      document. */
  lemma RootSound(st: Scanner) returns (d: Tree)
    requires Root(st).Match?
    ensures Wf(d) && Document(d) && st.rest == Print(d) + Root(st).after.rest
  {
    if Object(st).Match? {
      var ms := Soundness.ObjectSound(st);
      d := Obj(ms);
    } else {
      d := Soundness.ArraySound(st);
    }
  }

  /** A run succeeds exactly on the empty input and on the text of a
      well-formed object or array (with no whitespace between tokens). */
  lemma Accepted(input: string)
    ensures Run(input).Match? <==> input == [] || DocumentText(input)
  {
    var st := Initial(input);
    if Run(input).Match? && input != [] {
      var d := RootSound(st);
      assert Print(d) + [] == input;
    }
    if input != [] && DocumentText(input) {
      var d: Tree :| Wf(d) && Document(d) && Print(d) == input;
      RootComplete(d, st, []);
    }
  }

  /** Anything after a complete document is rejected, at its first code
      point, with the end-of-input message. */
  lemma TrailingText(d: Tree, tail: string)
    requires Wf(d) && Document(d) && tail != []
    ensures var r := Run(Print(d) + tail);
      r.Fatal? && r.message == EofExpected && r.at.rest == tail
  {
    RootComplete(d, Initial(Print(d) + tail), tail);
  }

  /** No document text is a proper prefix of another: the text of a
      document determines where it ends. */
  lemma PrefixFree(d1: Tree, d2: Tree, tail: string)
    requires Wf(d1) && Document(d1) && Wf(d2) && Document(d2)
    requires Print(d1) == Print(d2) + tail
    ensures tail == []
  {
    var st := Initial(Print(d1));
    RootComplete(d1, st, []);
    RootComplete(d2, st, tail);
  }
}

=== FILE: location.dfy ===
/** Where the row and column counters of parser.c point. The counters are
    kept incrementally by `scan`; this module gives an independent definition
    by counting line breaks in the text read so far, and proves the two agree
    for every number of scans from the initial state. */
module Location {
  import opened Parser

  /** Number of line-break code points in `t`. */
  function Breaks(t: seq<char>): nat {
    if t == [] then 0
    else Breaks(t[..|t| - 1]) + (if IsLineBreak(t[|t| - 1]) then 1 else 0)
  }

  /** Number of code points after the last line break of `t` (all of `t`
      when it has none). */
  function Column(t: seq<char>): nat {
    if t == [] || IsLineBreak(t[|t| - 1]) then 0 else Column(t[..|t| - 1]) + 1
  }

  /** The code points read from the input after `k` scans from the initial
      state: everything up to and including the lookahead. */
  function Read(input: seq<char>, k: nat): seq<char>
    requires k <= |input|
  {
    if k < |input| then input[..k + 1] else input
  }

  /** Row and column of the lookahead after `k` scans: one row per line break
      read, the column counts code points since the last one. Once the end
      of input has been read, the column is one past the last code point. */
  function Where(input: seq<char>, k: nat): (int, int)
    requires k <= |input|
  {
    var seen := Read(input, k);
    (1 + Breaks(seen), Column(seen) + (if k == |input| then 1 else 0))
  }

  /** Counting over one more code point. */
  lemma CountSnoc(t: seq<char>, c: char)
    ensures Breaks(t + [c]) == Breaks(t) + (if IsLineBreak(c) then 1 else 0)
    ensures Column(t + [c]) == if IsLineBreak(c) then 0 else Column(t) + 1
  {
    assert (t + [c])[..|t|] == t;
  }

  /** One scan moves the counters from the position of code point `k` to
      the position of code point `k + 1`. */
  lemma ScanTracks(input: seq<char>, k: nat, st: Scanner)
    requires k < |input|
    requires st.rest == input[k..] && (st.row, st.col) == Where(input, k)
    ensures Scan(st).rest == input[k + 1..] && (Scan(st).row, Scan(st).col) == Where(input, k + 1)
  {
    assert Read(input, k) == input[..k + 1];
    if k + 1 < |input| {
      assert Read(input, k + 1) == input[..k + 1] + [input[k + 1]];
      CountSnoc(input[..k + 1], input[k + 1]);
    } else {
      assert Read(input, k + 1) == input[..k + 1];
    }
  }

  /** The initial state points at the first code point. */
  lemma InitialTracks(input: seq<char>)
    ensures Advance(Initial(input), 0) == Initial(input)
    ensures Initial(input).rest == input[0..] && (Initial(input).row, Initial(input).col) == Where(input, 0)
  {
    if input != [] {
      assert Read(input, 0) == [] + [input[0]];
      CountSnoc([], input[0]);
    }
  }

  /** The counters `scan` keeps agree with the line/column of the lookahead
      in the input. */
  lemma {:induction false} CountersTrackInput(input: seq<char>, k: nat)
    requires k <= |input|
    ensures var st := Advance(Initial(input), k);
      st.rest == input[k..] && (st.row, st.col) == Where(input, k)
    decreases k
  {
    if k == 0 {
      InitialTracks(input);
    } else {
      CountersTrackInput(input, k - 1);
      AdvanceStep(Initial(input), k - 1);
      ScanTracks(input, k - 1, Advance(Initial(input), k - 1));
    }
  }

  /** Text without line breaks stays on the first row, and its column is its
      length. */
  lemma {:induction false} FlatLine(t: seq<char>)
    requires forall i | 0 <= i < |t| :: !IsLineBreak(t[i])
    ensures Breaks(t) == 0 && Column(t) == |t|
  {
    if t != [] {
      FlatLine(t[..|t| - 1]);
    }
  }
}

=== FILE: motion.dfy ===
/** Every rule changes the scanner state only by scanning: the state it
    leaves behind (including the state `error` reports) is the start state
    scanned over exactly the code points the rule consumed. Together with the
    line counting in `Location`, this pins every diagnostic to the row and
    column of the offending code point in the input. */
module Motion {
  import opened Parser
  import opened Location
  import opened Grammar

  /** `b` is `a` scanned over the code points between them. */
  predicate Moved(a: Scanner, b: Scanner) {
    |b.rest| <= |a.rest| && b == Advance(a, |a.rest| - |b.rest|)
  }

  lemma MovedRefl(a: Scanner)
    ensures Moved(a, a)
  {
  }

  lemma MovedScan(a: Scanner)
    ensures Moved(a, Scan(a))
  {
    if a.rest != [] {
      assert Advance(a, 1) == Advance(Scan(a), 0);
    }
  }

  lemma MovedTrans(a: Scanner, b: Scanner, c: Scanner)
    requires Moved(a, b) && Moved(b, c)
    ensures Moved(a, c)
  {
    AdvanceAdd(a, |a.rest| - |b.rest|, |b.rest| - |c.rest|);
  }

  lemma MovedAdvance(a: Scanner, n: nat)
    ensures Moved(a, Advance(a, n))
  {
    var m := Min(n, |a.rest|);
    AdvanceRest(a, n);
    AdvanceRest(a, m);
    AdvanceAdd(a, m, n - m);
    if n > m {
      AdvanceAtEof(Advance(a, m), n - m);
    }
  }

  lemma ExpectMoves(st: Scanner, t: Token)
    ensures Moved(st, Expect(st, t).after)
  {
    MovedRefl(st);
    MovedScan(st);
  }

  lemma DigitsMoves(st: Scanner)
    ensures Moved(st, Digits(st))
    decreases |st.rest|
  {
    if Digit(st).Match? {
      DigitsMoves(Scan(st));
      MovedScan(st);
      MovedTrans(st, Scan(st), Digits(st));
    }
  }

  lemma FractionMoves(st: Scanner)
    ensures Moved(st, Fraction(st).Stop())
  {
    var dot := Expect(st, Char('.'));
    MovedScan(st);
    if dot.ok && Digit(dot.after).Match? {
      var d := Digit(dot.after);
      MovedScan(dot.after);
      DigitsMoves(d.after);
      MovedTrans(st, dot.after, d.after);
      MovedTrans(st, d.after, Digits(d.after));
    }
  }

  lemma ExponentMoves(st: Scanner)
    ensures Moved(st, Exponent(st).Stop())
  {
    var e := Expect(st, Char('e'));
    var marker := if e.ok then e else Expect(e.after, Char('E'));
    MovedRefl(st);
    if marker.ok {
      MovedScan(st);
      SignedDigitsMoves(marker.after);
      MovedTrans(st, marker.after, SignedDigits(marker.after).Stop());
    }
  }

  lemma SignedDigitsMoves(st: Scanner)
    ensures Moved(st, SignedDigits(st).Stop())
  {
    var plus := Expect(st, Char('+'));
    var signed := if plus.ok then plus.after else Expect(plus.after, Char('-')).after;
    ExpectMoves(st, Char('+'));
    ExpectMoves(plus.after, Char('-'));
    MovedTrans(st, plus.after, signed);
    var d := Digit(signed);
    if d.Match? {
      MovedScan(signed);
      DigitsMoves(d.after);
      MovedTrans(st, signed, d.after);
      MovedTrans(st, d.after, Digits(d.after));
    }
  }

  lemma NumberTailMoves(st: Scanner)
    ensures Moved(st, NumberTail(st).Stop())
  {
    FractionMoves(st);
    var f := Fraction(st);
    if !f.Fatal? {
      ExponentMoves(f.after);
      MovedTrans(st, f.after, Exponent(f.after).Stop());
    }
  }

  lemma NumberMoves(st: Scanner)
    ensures Moved(st, Number(st).Stop())
  {
    var sign := Expect(st, Char('-')).after;
    ExpectMoves(st, Char('-'));
    MagnitudeMoves(sign);
    MovedTrans(st, sign, Magnitude(sign).Stop());
  }

  lemma MagnitudeMoves(st: Scanner)
    ensures Moved(st, Magnitude(st).Stop())
  {
    var zero := Expect(st, Char('0'));
    MovedRefl(st);
    if zero.ok {
      MovedScan(st);
      NumberTailMoves(zero.after);
      MovedTrans(st, zero.after, NumberTail(zero.after).Stop());
    } else if Nonzero(st).Match? {
      var lead := Nonzero(st);
      MovedScan(st);
      DigitsMoves(lead.after);
      MovedTrans(st, lead.after, Digits(lead.after));
      NumberTailMoves(Digits(lead.after));
      MovedTrans(st, Digits(lead.after), NumberTail(Digits(lead.after)).Stop());
    }
  }

  lemma EscapedMoves(st: Scanner)
    ensures Moved(st, Escaped(st).Stop())
  {
    var r := Escaped(st);
    MovedRefl(st);
    MovedScan(st);
    if r.Match? {
      if st.rest[1] in SimpleEscapes {
        MovedAdvance(st, 2);
      } else {
        MovedAdvance(st, 5);
      }
    } else if r.Fatal? {
      var u := Advance(st, 2);
      assert u == Expect(ExpectFirst(Expect(st, Char('\\')).after, SimpleEscapes).after, Char('u')).after;
      MovedAdvance(st, 2);
      MovedAdvance(u, 4 - HexRun(u, 4).1);
      MovedTrans(st, u, Unicode(u).at);
    }
  }

  lemma BodyMoves(st: Scanner)
    ensures Moved(st, Body(st).Stop())
    decreases |st.rest|
  {
    var plain := NoDQuoteSlash(st);
    if plain.Match? {
      MovedScan(st);
      BodyMoves(plain.after);
      MovedTrans(st, plain.after, Body(plain.after).Stop());
    } else {
      var esc := Escaped(st);
      EscapedMoves(st);
      if esc.Match? {
        BodyMoves(esc.after);
        MovedTrans(st, esc.after, Body(esc.after).Stop());
      }
    }
  }

  lemma StringMoves(st: Scanner)
    ensures Moved(st, String(st).Stop())
  {
    var open := Expect(st, Char('"'));
    MovedRefl(st);
    if open.ok {
      MovedScan(st);
      BodyMoves(open.after);
      var body := Body(open.after);
      MovedTrans(st, open.after, body.Stop());
      if !body.Fatal? {
        MovedScan(body.after);
        MovedTrans(st, body.after, Scan(body.after));
      }
    }
  }

  lemma KeywordMoves(st: Scanner, word: string, message: string)
    requires word != []
    ensures Moved(st, Keyword(st, word, message).Stop())
  {
    MovedRefl(st);
    MovedAdvance(st, |word|);
    MovedAdvance(st, Common(word, st.rest));
  }

  lemma ValueMoves(st: Scanner)
    ensures Moved(st, Value(st).Stop())
    decreases |st.rest|, 2
  {
    StringMoves(st);
    var r1 := String(st);
    if r1.NoMatch? {
      NumberMoves(st);
      var r2 := Number(st);
      if r2.NoMatch? {
        CompositeMoves(r2.after);
        MovedTrans(st, r2.after, Composite(r2.after).Stop());
      }
    }
  }

  lemma CompositeMoves(st: Scanner)
    ensures Moved(st, Composite(st).Stop())
    decreases |st.rest|, 1
  {
    ObjectMoves(st);
    ArrayMoves(st);
    LiteralMoves(st);
  }

  lemma LiteralMoves(st: Scanner)
    ensures Moved(st, Literal(st).Stop())
  {
    KeywordMoves(st, "true", TrueBroken);
    KeywordMoves(st, "false", FalseBroken);
    KeywordMoves(st, "null", NullBroken);
  }

  lemma ObjectMoves(st: Scanner)
    ensures Moved(st, Object(st).Stop())
    decreases |st.rest|, 0
  {
    var open := Expect(st, Char('{'));
    MovedRefl(st);
    if open.ok {
      MovedScan(st);
      PairMoves(open.after);
      var first := Pair(open.after);
      MovedTrans(st, open.after, first.Stop());
      var members := if first.Match? then Pairs(first.after) else first;
      if first.Match? {
        PairsMoves(first.after);
        MovedTrans(st, first.after, members.Stop());
      }
      if !members.Fatal? {
        MovedScan(members.after);
        MovedTrans(st, members.after, Scan(members.after));
      }
    }
  }

  lemma PairsMoves(st: Scanner)
    ensures Moved(st, Pairs(st).Stop())
    decreases |st.rest|, 0
  {
    var comma := Expect(st, Char(','));
    MovedRefl(st);
    if comma.ok {
      MovedScan(st);
      PairMoves(comma.after);
      var p := Pair(comma.after);
      MovedTrans(st, comma.after, p.Stop());
      if p.Match? {
        PairsMoves(p.after);
        MovedTrans(st, p.after, Pairs(p.after).Stop());
      }
    }
  }

  lemma PairMoves(st: Scanner)
    ensures Moved(st, Pair(st).Stop())
    decreases |st.rest|, 0
  {
    StringMoves(st);
    var key := String(st);
    if key.Match? {
      var colon := Expect(key.after, Char(':'));
      if colon.ok {
        MovedScan(key.after);
        MovedTrans(st, key.after, colon.after);
        ValueMoves(colon.after);
        MovedTrans(st, colon.after, Value(colon.after).Stop());
      }
    }
  }

  lemma ArrayMoves(st: Scanner)
    ensures Moved(st, Array(st).Stop())
    decreases |st.rest|, 0
  {
    var open := Expect(st, Char('['));
    MovedRefl(st);
    if open.ok {
      MovedScan(st);
      ValueMoves(open.after);
      var first := Value(open.after);
      MovedTrans(st, open.after, first.Stop());
      var items := if first.Match? then Values(first.after) else first;
      if first.Match? {
        ValuesMoves(first.after);
        MovedTrans(st, first.after, items.Stop());
      }
      if !items.Fatal? {
        MovedScan(items.after);
        MovedTrans(st, items.after, Scan(items.after));
      }
    }
  }

  lemma ValuesMoves(st: Scanner)
    ensures Moved(st, Values(st).Stop())
    decreases |st.rest|, 0
  {
    var comma := Expect(st, Char(','));
    MovedRefl(st);
    if comma.ok {
      MovedScan(st);
      ValueMoves(comma.after);
      var v := Value(comma.after);
      MovedTrans(st, comma.after, v.Stop());
      if v.Match? {
        ValuesMoves(v.after);
        MovedTrans(st, v.after, Values(v.after).Stop());
      }
    }
  }

  lemma JsonMoves(st: Scanner)
    ensures Moved(st, Json(st).Stop())
  {
    ObjectMoves(st);
    ArrayMoves(st);
    var root := Root(st);
    if !root.Fatal? {
      MovedRefl(root.after);
    }
  }

  /** The diagnostic of a failed run names the row and column of the code
      point the parser stopped at (counted from the input as `Where` does),
      the message, and that code point's rendering, or "EOF". */
  lemma ErrorPinpointed(input: seq<char>)
    requires Run(input).Fatal?
    ensures var r := Run(input);
      var k := |input| - |r.at.rest|;
      0 <= k <= |input| && r.at.rest == input[k..] &&
      r.Report() == Diagnostic(Where(input, k).0, Where(input, k).1, r.message,
                               Render(if k < |input| then Char(input[k]) else EOF))
  {
    var r := Run(input);
    JsonMoves(Initial(input));
    var k := |input| - |r.at.rest|;
    CountersTrackInput(input, k);
  }
}

=== FILE: parser.dfy ===
/** Model of the scanner in parser.c: the single lookahead cell, the row and
    column counters kept for diagnostics, and the scanning primitives the
    grammar rules are built from.

    The C code keeps the lookahead in a global `next` and pulls code points
    from standard input on demand. Here the whole input is a finite sequence
    and the scanner state is a value: the first element of `rest` is the code
    point in the lookahead cell, the remaining elements are still unread, and
    an empty `rest` means the cell holds the end-of-input sentinel (WEOF). */
module Parser {

  /** The content of the lookahead cell: a code point, or end of input. */
  datatype Token = Char(c: char) | EOF

  /** Scanner state: unread input (lookahead first) and the counters. */
  datatype Scanner = Scanner(rest: seq<char>, row: int, col: int)

  /** Result of a primitive that may consume: did it succeed, and the state it
      left behind (the C functions return a bool and update the globals). */
  datatype Probe = Probe(ok: bool, after: Scanner)

  /** The record `error` prints before exiting: position, message and the
      rendering of the lookahead. */
  datatype Diagnostic = Diagnostic(row: int, col: int, message: string, next: string)

  // Character classes used by the C library calls, fixed to their ASCII members.

  /** iswspace: space, tab, line feed, carriage return, vertical tab, form feed. */
  predicate IsSpace(c: char) {
    c == ' ' || c == '\t' || c == '\n' || c == '\r' || c == '\U{B}' || c == '\U{C}'
  }

  /** iswblank: space and tab. */
  predicate IsBlank(c: char) {
    c == ' ' || c == '\t'
  }

  /** Whitespace that is not blank starts a new row. */
  predicate IsLineBreak(c: char) {
    IsSpace(c) && !IsBlank(c)
  }

  /** iswdigit. */
  predicate IsDigit(c: char) {
    '0' <= c <= '9'
  }

  /** iswxdigit. */
  predicate IsHexDigit(c: char) {
    IsDigit(c) || 'a' <= c <= 'f' || 'A' <= c <= 'F'
  }

  function Lookahead(st: Scanner): Token {
    if st.rest == [] then EOF else Char(st.rest[0])
  }

  function Min(a: int, b: int): int {
    if a <= b then a else b
  }

  /** `scan`: unless the lookahead is already end of input, read the next code
      point into the cell and advance the column; when the new lookahead is a
      line break the row advances and the column restarts at 0. */
  function Scan(st: Scanner): (r: Scanner)
    ensures st.rest == [] ==> r == st
    ensures st.rest != [] ==> r.rest == st.rest[1..]
    ensures r.row == st.row || (r.row == st.row + 1 && r.col == 0)
    ensures st.rest != [] ==> (r.row == st.row + 1 <==> r.rest != [] && IsLineBreak(r.rest[0]))
    ensures st.rest != [] && r.row == st.row ==> r.col == st.col + 1
  {
    if st.rest == [] then st
    else
      var rest := st.rest[1..];
      var col := st.col + 1;
      if rest != [] && IsLineBreak(rest[0]) then Scanner(rest, st.row + 1, 0)
      else Scanner(rest, st.row, col)
  }

  /** `n` successive scans. */
  function Advance(st: Scanner, n: nat): Scanner
    decreases n
  {
    if n == 0 then st else Advance(Scan(st), n - 1)
  }

  /** `b` is a state some scanning from `a` can leave: its unread input is a
      suffix of `a`'s. */
  predicate Behind(a: Scanner, b: Scanner) {
    |b.rest| <= |a.rest| && b.rest == a.rest[|a.rest| - |b.rest|..]
  }

  /** The placeholder L'\0' the lookahead cell holds before the first scan
      (json.c:39), with the counters' initial values row 1, column 0. */
  function Start(input: seq<char>): Scanner {
    Scanner(['\0'] + input, 1, 0)
  }

  /** The state the grammar starts from: main.c scans once before calling
      `json`, which replaces the placeholder with the first code point. */
  function Initial(input: seq<char>): (r: Scanner)
    ensures r.rest == input
    ensures input != [] && IsLineBreak(input[0]) ==> r.row == 2 && r.col == 0
    ensures input == [] || !IsLineBreak(input[0]) ==> r.row == 1 && r.col == 1
  {
    Scan(Start(input))
  }

  /** `expect(c)`: succeed iff the lookahead is `t`, and then scan once;
      otherwise leave the state alone. `t` may be EOF (`expect(WEOF)`). */
  function Expect(st: Scanner, t: Token): (p: Probe)
    ensures p.ok <==> Lookahead(st) == t
    ensures !p.ok ==> p.after == st
    ensures p.ok && t.Char? ==> p.after == Scan(st) && p.after.rest == st.rest[1..]
    ensures p.ok && t == EOF ==> p.after == st
  {
    var ok := Lookahead(st) == t;
    if ok then Probe(true, Scan(st)) else Probe(false, st)
  }

  /** Where the search of `noexpect` through its excluded string stops,
      starting from index `i`: at the first entry equal to the lookahead or
      at the string's end, and at once when the lookahead is end of input. */
  function StopIndex(next: Token, excluded: seq<char>, i: nat): (j: nat)
    requires i <= |excluded|
    ensures i <= j <= |excluded|
    ensures next != EOF ==> forall k | i <= k < j :: Char(excluded[k]) != next
    ensures next != EOF && j < |excluded| ==> Char(excluded[j]) == next
    ensures next == EOF ==> j == i
    decreases |excluded| - i
  {
    if next != EOF && i < |excluded| && Char(excluded[i]) != next then StopIndex(next, excluded, i + 1)
    else i
  }

  /** `noexpect(c)`: the excluded code points form a NUL-terminated wide
      string, so NUL is never one of them. The C loop walks the string until
      it meets the lookahead; reaching the terminator means success, and the
      lookahead is consumed. */
  function NoExpect(st: Scanner, excluded: seq<char>): (p: Probe)
    requires '\0' !in excluded
    ensures p.ok <==> (st.rest != [] && st.rest[0] !in excluded) || (st.rest == [] && excluded == [])
    ensures p.ok ==> p.after == Scan(st)
    ensures !p.ok ==> p.after == st
  {
    var j := StopIndex(Lookahead(st), excluded, 0);
    if j == |excluded| then Probe(true, Scan(st)) else Probe(false, st)
  }

  /** Number of leading whitespace code points of `t`. */
  function Spaces(t: seq<char>): (n: nat)
    ensures n <= |t|
  {
    if t != [] && IsSpace(t[0]) then 1 + Spaces(t[1..]) else 0
  }

  /** `scani`: when not at end of input, scan at least once and keep scanning
      while the lookahead is whitespace. */
  method ScanI(st: Scanner) returns (r: Scanner)
    ensures st.rest == [] ==> r == st
    ensures st.rest != [] ==> r == Advance(st, 1 + Spaces(st.rest[1..]))
    ensures r.rest == [] || !IsSpace(r.rest[0])
  {
    r := st;
    if r.rest != [] {
      r := Scan(r);
      var n: nat := 1;
      while r.rest != [] && IsSpace(r.rest[0])
        invariant 1 <= n <= |st.rest|
        invariant r == Advance(st, n) && r.rest == st.rest[n..]
        invariant forall k | 1 <= k < n :: IsSpace(st.rest[k])
        decreases |st.rest| - n
      {
        AdvanceStep(st, n);
        r := Scan(r);
        n := n + 1;
      }
      SpacesRun(st.rest[1..], n - 1);
    }
  }

  /** `expecti(c)`: like `expect`, but a match advances with `scani`. */
  method ExpectI(st: Scanner, t: Token) returns (p: Probe)
    ensures p.ok <==> Lookahead(st) == t
    ensures !p.ok ==> p.after == st
    ensures p.ok ==> p.after == if st.rest == [] then st else Advance(st, 1 + Spaces(st.rest[1..]))
    ensures p.ok ==> p.after.rest == [] || !IsSpace(p.after.rest[0])
  {
    var ok := Lookahead(st) == t;
    if ok {
      var r := ScanI(st);
      p := Probe(true, r);
    } else {
      p := Probe(false, st);
    }
  }

  /** The text `next_to_string` yields for a lookahead. `swprintf` of a NUL
      code point writes only the terminator, so NUL renders as "". */
  function Render(t: Token): (r: string)
    ensures r == "EOF" <==> t == EOF
    ensures t.Char? && t.c != '\0' ==> r == [t.c]
    ensures t == Char('\0') ==> r == []
  {
    match t
    case EOF => "EOF"
    case Char(c) => if c == '\0' then "" else [c]
  }

  /** `next_to_string`: "EOF" at end of input, otherwise the lookahead as a
      one-character string (empty for NUL). */
  function NextToString(st: Scanner): (r: string)
    ensures r == "EOF" <==> st.rest == []
    ensures st.rest != [] && st.rest[0] != '\0' ==> r == [st.rest[0]]
    ensures st.rest != [] && st.rest[0] == '\0' ==> r == []
  {
    Render(Lookahead(st))
  }

  /** `error`: the record printed before the process exits. */
  function Error(st: Scanner, message: string): (d: Diagnostic)
    ensures d.row == st.row && d.col == st.col && d.message == message
    ensures d.next == "EOF" <==> st.rest == []
    ensures st.rest != [] && st.rest[0] != '\0' ==> d.next == [st.rest[0]]
    ensures st.rest != [] && st.rest[0] == '\0' ==> d.next == []
  {
    Diagnostic(st.row, st.col, message, NextToString(st))
  }

  // Lemmas about scanning.

  /** `n` scans drop `n` code points from the unread input, or all of them. */
  lemma {:induction false} AdvanceRest(st: Scanner, n: nat)
    ensures Advance(st, n).rest == st.rest[Min(n, |st.rest|)..]
    decreases n
  {
    if n > 0 {
      AdvanceRest(Scan(st), n - 1);
      if st.rest != [] {
        assert st.rest[1..][Min(n - 1, |st.rest| - 1)..] == st.rest[Min(n, |st.rest|)..];
      }
    }
  }

  /** One more scan after `n` scans. */
  lemma {:induction false} AdvanceStep(st: Scanner, n: nat)
    ensures Advance(st, n + 1) == Scan(Advance(st, n))
    decreases n
  {
    if n > 0 {
      AdvanceStep(Scan(st), n - 1);
    }
  }

  /** Scanning `a` then `b` times is scanning `a + b` times. */
  lemma {:induction false} AdvanceAdd(st: Scanner, a: nat, b: nat)
    ensures Advance(Advance(st, a), b) == Advance(st, a + b)
    decreases a
  {
    if a > 0 {
      calc {
        Advance(Advance(st, a), b);
        Advance(Advance(Scan(st), a - 1), b);
        { AdvanceAdd(Scan(st), a - 1, b); }
        Advance(Scan(st), a - 1 + b);
        Advance(st, a + b);
      }
    }
  }

  /** At end of input, scanning changes nothing, however often it happens. */
  lemma {:induction false} AdvanceAtEof(st: Scanner, n: nat)
    requires st.rest == []
    ensures Advance(st, n) == st
    decreases n
  {
    if n > 0 {
      AdvanceAtEof(Scan(st), n - 1);
    }
  }

  /** The row counter never goes down and the column only restarts on a row
      change: after any number of scans the position has not moved back. */
  lemma {:induction false} PositionMonotone(st: Scanner, n: nat)
    ensures var r := Advance(st, n); r.row > st.row || (r.row == st.row && r.col >= st.col)
    decreases n
  {
    if n > 0 {
      PositionMonotone(Scan(st), n - 1);
    }
  }

  /** A maximal run of `k` leading whitespace code points is what `Spaces`
      counts. */
  lemma {:induction false} SpacesRun(t: seq<char>, k: nat)
    requires k <= |t|
    requires forall i | 0 <= i < k :: IsSpace(t[i])
    requires k == |t| || !IsSpace(t[k])
    ensures Spaces(t) == k
    decreases k
  {
    if k > 0 {
      SpacesRun(t[1..], k - 1);
    }
  }

  /** The rendering of the lookahead tells the tokens apart: EOF, NUL and
      every other code point have distinct renderings. */
  lemma RenderInjective(a: Token, b: Token)
    requires Render(a) == Render(b)
    ensures a == b
  {
    if a.Char? && b.Char? && a.c != '\0' && b.c != '\0' {
      assert Render(a)[0] == a.c;
    }
  }
}

=== FILE: scenarios.dfy ===
/** Concrete runs: inputs the recogniser accepts although plain JSON would
    not (or would only with whitespace), and inputs it rejects, each with
    the exact diagnostic `error` prints: row, column, message and the
    rendering of the offending lookahead. */
module Scenarios {
  import opened Parser
  import opened Location
  import opened Grammar
  import opened Syntax
  import opened Behaviour
  import Language
  import Motion

  const One := Num(false, "1", [], NoExponent)

  // Accepted inputs.

  /** A document given by its tree is accepted. */
  lemma TreeAccepted(d: Tree, input: string)
    requires Wf(d) && Document(d) && Print(d) == input
    ensures Run(input).Match?
  {
    Language.Accepted(input);
  }

  /** The empty input is accepted. */
  lemma EmptyAccepted()
    ensures Run("").Match?
  {
    Language.Accepted("");
  }

  /** "[-]": the '-' is consumed by `number`, which then fails softly. */
  lemma DashAccepted()
    ensures Run("[-]").Match?
  {
    TreeAccepted(DashArr, "[-]");
  }

  /** A '-' in front of a keyword. */
  lemma SignedKeywordAccepted()
    ensures Run("[-true]").Match?
  {
    TreeAccepted(Arr([Signed(True)]), "[-true]");
  }

  /** An object with the key "a" twice. */
  const Duplicates := Obj([Member("a", One), Member("a", Num(false, "2", [], NoExponent))])

  lemma DuplicatesText()
    ensures Wf(Duplicates) && Print(Duplicates) == "{\"a\":1,\"a\":2}"
  {
    var ms := Duplicates.members;
    assert PrintMember(ms[0]) == "\"a\":1";
    assert MoreMembers(ms[1..]) == ",\"a\":2";
    assert PrintMembers(ms) == "\"a\":1,\"a\":2";
  }

  /** Duplicate keys. */
  lemma DuplicateKeysAccepted()
    ensures Run("{\"a\":1,\"a\":2}").Match?
  {
    DuplicatesText();
    TreeAccepted(Duplicates, "{\"a\":1,\"a\":2}");
  }

  /** A raw line break inside a string. */
  lemma RawLineBreakAccepted()
    ensures Run("[\"a\nb\"]").Match?
  {
    assert WfBody("a\nb");
    TreeAccepted(Arr([Str("a\nb")]), "[\"a\nb\"]");
  }

  // Diagnostics.

  /** No input of the failing examples below holds a line break. */
  predicate SingleLine(t: string) {
    forall i | 0 <= i < |t| :: !IsLineBreak(t[i])
  }

  /** On a single line, a run failing at code point `k` reports row 1 and
      column `k + 1`, or one past the end when it failed at end of input. */
  lemma OneLine(input: string, k: nat, message: string)
    requires k <= |input| && SingleLine(input)
    requires Run(input).Fatal? && Run(input).message == message && Run(input).at.rest == input[k..]
    ensures Run(input).Report() == Diagnostic(1, k + 1, message, Render(if k < |input| then Char(input[k]) else EOF))
  {
    Motion.ErrorPinpointed(input);
    FlatLine(Read(input, k));
  }

  lemma SingleLineInputs()
    ensures SingleLine("true") && SingleLine("{\"a\":1,}") && SingleLine("{\"a\":}") && SingleLine("{\"a\": 1}")
    ensures SingleLine("[\"\\u12\"]") && SingleLine("[01]") && SingleLine("[tru]") && SingleLine("[\"\\q\"]")
    ensures SingleLine("{\"a\":1") && SingleLine("[\"ab\\")
  {
  }

  /** A bare keyword is not a document: the root does not match and the
      end-of-input check fails on its first letter. */
  lemma BareTrueReported()
    ensures var r := Run("true"); r.Fatal? && r.Report() == Diagnostic(1, 1, EofExpected, "t")
  {
    SingleLineInputs();
    OneLine("true", 0, EofExpected);
  }

  /** A run whose root fails on a single line is reported at row 1,
      column `k + 1`, by the same message. */
  lemma RootReport(input: string, k: nat, message: string)
    requires k <= |input| && SingleLine(input)
    requires Root(Initial(input)).Fatal? && Root(Initial(input)).message == message
    requires Root(Initial(input)).at.rest == input[k..]
    ensures Run(input).Fatal?
    ensures Run(input).Report() == Diagnostic(1, k + 1, message, Render(if k < |input| then Char(input[k]) else EOF))
  {
    OneLine(input, k, message);
  }

  lemma TrailingCommaFails(st: Scanner)
    requires st.rest == "{\"a\":1,}"
    ensures var r := Root(st); r.Fatal? && r.message == ObjectNeedsPair && r.at.rest == "}"
  {
    var ms := [Member("a", One)];
    assert PrintMembers(ms) == "\"a\":1";
    ObjectTrailingComma(ms, st, "}");
  }

  /** A comma before the closing brace. */
  lemma TrailingCommaReported()
    ensures var r := Run("{\"a\":1,}"); r.Fatal? && r.Report() == Diagnostic(1, 8, ObjectNeedsPair, "}")
  {
    SingleLineInputs();
    TrailingCommaFails(Initial("{\"a\":1,}"));
    RootReport("{\"a\":1,}", 7, ObjectNeedsPair);
  }

  lemma EmptyValueFails(st: Scanner)
    requires st.rest == "{\"a\":}"
    ensures var r := Root(st); r.Fatal? && r.message == PairNeedsValue && r.at.rest == "}"
  {
    Completeness.ScanPast(st, '{', "\"a\":}");
    MissingValue(Scan(st), "a", "}");
  }

  /** A key and ':' with no value. */
  lemma EmptyValueReported()
    ensures var r := Run("{\"a\":}"); r.Fatal? && r.Report() == Diagnostic(1, 6, PairNeedsValue, "}")
  {
    SingleLineInputs();
    EmptyValueFails(Initial("{\"a\":}"));
    RootReport("{\"a\":}", 5, PairNeedsValue);
  }

  lemma SpaceAfterColonFails(st: Scanner)
    requires st.rest == "{\"a\": 1}"
    ensures var r := Root(st); r.Fatal? && r.message == PairNeedsValue && r.at.rest == " 1}"
  {
    Completeness.ScanPast(st, '{', "\"a\": 1}");
    MissingValue(Scan(st), "a", " 1}");
  }

  /** Whitespace after the ':' of a pair: the value is missing. */
  lemma SpaceAfterColonReported()
    ensures var r := Run("{\"a\": 1}"); r.Fatal? && r.Report() == Diagnostic(1, 6, PairNeedsValue, " ")
  {
    SingleLineInputs();
    SpaceAfterColonFails(Initial("{\"a\": 1}"));
    RootReport("{\"a\": 1}", 5, PairNeedsValue);
  }

  lemma ShortUnicodeString(st: Scanner)
    requires st.rest == "\"\\u12\"]"
    ensures var r := String(st); r.Fatal? && r.message == HexNeedsFour && r.at.rest == "\"]"
  {
    var x := "12\"]";
    assert st.rest == "\"" + ([] + (['\\', 'u'] + x));
    assert IsHexDigit(x[0]) && IsHexDigit(x[1]) && !IsHexDigit(x[2]);
    var k := ShortUnicode(st, [], x);
    assert k == 2;
  }

  lemma ShortUnicodeFails(st: Scanner)
    requires st.rest == "[\"\\u12\"]"
    ensures var r := Root(st); r.Fatal? && r.message == HexNeedsFour && r.at.rest == "\"]"
  {
    Completeness.ScanPast(st, '[', "\"\\u12\"]");
    ShortUnicodeString(Scan(st));
    ValueDispatch(Scan(st));
    assert Root(st) == Array(st);
  }

  /** `\u` with two hex digits: reported at the closing quote. */
  lemma ShortUnicodeReported()
    ensures var r := Run("[\"\\u12\"]"); r.Fatal? && r.Report() == Diagnostic(1, 7, HexNeedsFour, "\"")
  {
    SingleLineInputs();
    ShortUnicodeFails(Initial("[\"\\u12\"]"));
    RootReport("[\"\\u12\"]", 6, HexNeedsFour);
  }

  /** The code point after "{}" sits at the start of row 2 when it is a
      line break. */
  lemma NewlineWhere()
    ensures Where("{}\n", 2) == (2, 0)
  {
    assert Read("{}\n", 2) == "{}" + ['\n'];
    CountSnoc("{}", '\n');
    FlatLine("{}");
  }

  /** A line break after a complete document is left over, and is reported
      at the start of row 2. */
  lemma NewlineAfterDocumentReported()
    ensures var r := Run("{}\n"); r.Fatal? && r.Report() == Diagnostic(2, 0, EofExpected, "\n")
  {
    assert Print(Obj([])) + "\n" == "{}\n";
    Language.TrailingText(Obj([]), "\n");
    Motion.ErrorPinpointed("{}\n");
    NewlineWhere();
  }

  lemma LeadingZeroFails(st: Scanner)
    requires st.rest == "[01]"
    ensures var r := Root(st); r.Fatal? && r.message == ArrayUnclosed && r.at.rest == "1]"
  {
    Completeness.ScanPast(st, '[', "01]");
    var open := Scan(st);
    ValueDispatch(open);
    ZeroStops(open, "1]");
    Completeness.ScanPast(open, '0', "1]");
    var zero := Scan(open);
    assert Values(zero) == Match(zero);
    assert Root(st) == Array(st);
  }

  /** A leading zero ends the number, so the array meets a digit where it
      expects ',' or ']'. */
  lemma LeadingZeroReported()
    ensures var r := Run("[01]"); r.Fatal? && r.Report() == Diagnostic(1, 3, ArrayUnclosed, "1")
  {
    SingleLineInputs();
    LeadingZeroFails(Initial("[01]"));
    RootReport("[01]", 2, ArrayUnclosed);
  }

  lemma BrokenKeywordValue(st: Scanner)
    requires st.rest == "tru]"
    ensures var r := Value(st); r.Fatal? && r.message == TrueBroken && r.at.rest == "]"
  {
    ValueDispatch(st);
    assert Common("true", "tru]") == 3;
    Completeness.Skip(st, 3);
  }

  lemma BrokenKeywordFails(st: Scanner)
    requires st.rest == "[tru]"
    ensures var r := Root(st); r.Fatal? && r.message == TrueBroken && r.at.rest == "]"
  {
    Completeness.ScanPast(st, '[', "tru]");
    BrokenKeywordValue(Scan(st));
    assert Root(st) == Array(st);
  }

  /** A keyword commits on its first letter: "tru" is fatal at the code
      point after it. */
  lemma BrokenKeywordReported()
    ensures var r := Run("[tru]"); r.Fatal? && r.Report() == Diagnostic(1, 5, TrueBroken, "]")
  {
    SingleLineInputs();
    BrokenKeywordFails(Initial("[tru]"));
    RootReport("[tru]", 4, TrueBroken);
  }

  lemma UnknownEscapeFails(st: Scanner)
    requires st.rest == "[\"\\q\"]"
    ensures var r := Root(st); r.Fatal? && r.message == StringUnclosed && r.at.rest == "q\"]"
  {
    Completeness.ScanPast(st, '[', "\"\\q\"]");
    var open := Scan(st);
    assert open.rest == "\"" + ([] + (['\\', 'q'] + "\"]"));
    UnknownEscape(open, [], 'q', "\"]");
    ValueDispatch(open);
    assert Root(st) == Array(st);
  }

  /** An unknown escape ends the string body after the backslash, and the
      string then misses its closing quote at the escape code. */
  lemma UnknownEscapeReported()
    ensures var r := Run("[\"\\q\"]"); r.Fatal? && r.Report() == Diagnostic(1, 4, StringUnclosed, "q")
  {
    SingleLineInputs();
    UnknownEscapeFails(Initial("[\"\\q\"]"));
    RootReport("[\"\\q\"]", 3, StringUnclosed);
  }

  lemma BackslashAtEofFails(st: Scanner)
    requires st.rest == "[\"ab\\"
    ensures var r := Root(st); r.Fatal? && r.message == StringUnclosed && r.at.rest == []
  {
    Completeness.ScanPast(st, '[', "\"ab\\");
    var open := Scan(st);
    assert open.rest == "\"" + ("ab" + "\\");
    BackslashAtEof(open, "ab");
    ValueDispatch(open);
    assert Root(st) == Array(st);
  }

  /** A string whose last code point is a lone backslash: the escape finds
      no code, and the string misses its closing quote at end of input. */
  lemma BackslashAtEofReported()
    ensures var r := Run("[\"ab\\"); r.Fatal? && r.Report() == Diagnostic(1, 6, StringUnclosed, "EOF")
  {
    SingleLineInputs();
    BackslashAtEofFails(Initial("[\"ab\\"));
    RootReport("[\"ab\\", 5, StringUnclosed);
  }

  /** A '-' where the value of a pair should be: `number` consumes it and
      gives up, so the pair fails on the code point after the '-'. */
  lemma DashValueFails(st: Scanner)
    requires st.rest == "{\"a\":-}"
    ensures var r := Root(st); r.Fatal? && r.message == PairNeedsValue && r.at.rest == "}"
  {
    Completeness.ScanPast(st, '{', "\"a\":-}");
    MissingValue(Scan(st), "a", "-}");
  }

  /** A ',' and a lone '-' in an array: fatal after the '-', not after the
      ','. */
  lemma DashAfterCommaFails(st: Scanner)
    requires st.rest == "[1,-]"
    ensures var r := Root(st); r.Fatal? && r.message == ArrayNeedsValue && r.at.rest == "]"
  {
    assert PrintItems([One]) == "1";
    ArrayTrailingComma([One], st, "-]");
    assert Root(st) == Array(st);
  }

  /** Whitespace inside an empty object: '}' is looked for at the space. */
  lemma SpacedEmptyObjectFails(st: Scanner)
    requires st.rest == "{ }"
    ensures var r := Root(st); r.Fatal? && r.message == ObjectUnclosed && r.at.rest == " }"
  {
    assert "{" + (PrintMembers([]) + " }") == "{ }";
    MissingObjectClose([], st, " }");
  }

  /** Whitespace before the closing ']' of an array: ']' is looked for at
      the space. */
  lemma SpacedArrayFails(st: Scanner)
    requires st.rest == "[1 ]"
    ensures var r := Root(st); r.Fatal? && r.message == ArrayUnclosed && r.at.rest == " ]"
  {
    assert "[" + (PrintItems([One]) + " ]") == "[1 ]";
    MissingArrayClose([One], st, " ]");
    assert Root(st) == Array(st);
  }

  lemma UnclosedObjectFails(st: Scanner)
    requires st.rest == "{\"a\":1"
    ensures var r := Root(st); r.Fatal? && r.message == ObjectUnclosed && r.at.rest == []
  {
    var ms := [Member("a", One)];
    assert "{" + (PrintMembers(ms) + []) == "{\"a\":1";
    MissingObjectClose(ms, st, []);
  }

  /** An object cut off by end of input is reported one column past the
      end, with "EOF" as the lookahead. */
  lemma UnclosedObjectReported()
    ensures var r := Run("{\"a\":1"); r.Fatal? && r.Report() == Diagnostic(1, 7, ObjectUnclosed, "EOF")
  {
    SingleLineInputs();
    UnclosedObjectFails(Initial("{\"a\":1"));
    RootReport("{\"a\":1", 6, ObjectUnclosed);
  }
}

=== FILE: soundness.dfy ===
/** Soundness of the rules with respect to the reference grammar: whatever
    a rule matches is the text of a well-formed tree of its kind. Each lemma
    returns the tree, so the text a rule consumed can be read off it. */
module Soundness {
  import opened Parser
  import opened Grammar
  import opened Syntax
  import opened Completeness

  /** The first unread code point followed by what one scan leaves. */
  lemma ScanSplit(st: Scanner)
    requires st.rest != []
    ensures st.rest == [st.rest[0]] + Scan(st).rest
  {
  }

  /** The unread input is what `n` scans read followed by what they leave. */
  lemma AdvanceSplit(st: Scanner, n: nat)
    requires n <= |st.rest|
    ensures st.rest == st.rest[..n] + Advance(st, n).rest
  {
    Skip(st, n);
  }

  // Numbers.

  lemma DigitsSound(st: Scanner) returns (d: string)
    ensures AllDigits(d) && st.rest == d + Digits(st).rest
  {
    var r := Digits(st);
    d := st.rest[..|st.rest| - |r.rest|];
  }

  lemma DigitsCons(c: char, ds: string, tail: string)
    requires IsDigit(c) && AllDigits(ds)
    ensures AllDigits([c] + ds) && [c] + (ds + tail) == [c] + ds + tail
  {
  }

  lemma FractionSound(st: Scanner) returns (f: string)
    requires Fraction(st).Match?
    ensures AllDigits(f) && st.rest == PrintFraction(f) + Fraction(st).after.rest
  {
    if st.rest == [] || st.rest[0] != '.' {
      f := [];
    } else {
      var dot := Scan(st);
      ScanSplit(st);
      var d := Scan(dot);
      ScanSplit(dot);
      assert Fraction(st).after == Digits(d);
      var ds := DigitsSound(d);
      DigitsCons(dot.rest[0], ds, Digits(d).rest);
      f := [dot.rest[0]] + ds;
      Regroup(".", f, Digits(d).rest);
    }
  }

  lemma SignSound(st: Scanner) returns (sign: string)
    ensures var plus := Expect(st, Char('+'));
      var signed := if plus.ok then plus.after else Expect(plus.after, Char('-')).after;
      (sign == [] || sign == "+" || sign == "-") && st.rest == sign + signed.rest
  {
    if st.rest != [] && (st.rest[0] == '+' || st.rest[0] == '-') {
      sign := [st.rest[0]];
      ScanSplit(st);
    } else {
      sign := [];
    }
  }

  lemma SignedDigitsSound(st: Scanner) returns (sign: string, d: string)
    requires SignedDigits(st).Match?
    ensures (sign == [] || sign == "+" || sign == "-") && d != [] && AllDigits(d)
    ensures st.rest == sign + (d + SignedDigits(st).after.rest)
  {
    var plus := Expect(st, Char('+'));
    var signed := if plus.ok then plus.after else Expect(plus.after, Char('-')).after;
    sign := SignSound(st);
    ScanSplit(signed);
    assert SignedDigits(st).after == Digits(Scan(signed));
    var ds := DigitsSound(Scan(signed));
    DigitsCons(signed.rest[0], ds, Digits(Scan(signed)).rest);
    d := [signed.rest[0]] + ds;
  }

  lemma ExponentSound(st: Scanner) returns (e: ExponentPart)
    requires Exponent(st).Match?
    ensures WfExponent(e) && st.rest == PrintExponent(e) + Exponent(st).after.rest
  {
    if st.rest == [] || (st.rest[0] != 'e' && st.rest[0] != 'E') {
      e := NoExponent;
    } else {
      ScanSplit(st);
      assert Exponent(st) == SignedDigits(Scan(st));
      var sign, d := SignedDigitsSound(Scan(st));
      e := Exp(st.rest[0], sign, d);
      ExponentText(e, Exponent(st).after.rest);
    }
  }

  lemma NumberTailSound(st: Scanner) returns (f: string, e: ExponentPart)
    requires NumberTail(st).Match?
    ensures AllDigits(f) && WfExponent(e)
    ensures st.rest == PrintFraction(f) + (PrintExponent(e) + NumberTail(st).after.rest)
  {
    f := FractionSound(st);
    e := ExponentSound(Fraction(st).after);
  }

  lemma MagnitudeSound(st: Scanner) returns (w: string, f: string, e: ExponentPart)
    requires Magnitude(st).Match?
    ensures WfNumber(w, f, e)
    ensures st.rest == w + (PrintFraction(f) + (PrintExponent(e) + Magnitude(st).after.rest))
  {
    ScanSplit(st);
    var lead := Scan(st);
    if st.rest[0] == '0' {
      w := "0";
      f, e := NumberTailSound(lead);
    } else {
      assert Magnitude(st) == NumberTail(Digits(lead));
      var ds := DigitsSound(lead);
      f, e := NumberTailSound(Digits(lead));
      w := [st.rest[0]] + ds;
      DigitsCons(st.rest[0], ds, PrintFraction(f) + (PrintExponent(e) + Magnitude(st).after.rest));
    }
  }

  lemma NumberSound(st: Scanner) returns (v: Tree)
    requires Number(st).Match?
    ensures v.Num? && Wf(v) && st.rest == Print(v) + Number(st).after.rest
  {
    var negative := st.rest != [] && st.rest[0] == '-';
    var sign := Expect(st, Char('-')).after;
    if negative {
      ScanSplit(st);
    }
    var w, f, e := MagnitudeSound(sign);
    v := Num(negative, w, f, e);
    NumberText(negative, w, f, e, Number(st).after.rest);
  }

  // Strings.

  lemma PlainWf(c: char, b: string)
    requires c != '"' && c != '\\' && WfBody(b)
    ensures WfBody([c] + b)
  {
    assert ([c] + b)[1..] == b;
  }

  lemma EscapeWf(c: char, b: string)
    requires c in SimpleEscapes && WfBody(b)
    ensures WfBody(['\\', c] + b)
  {
    assert (['\\', c] + b)[2..] == b;
  }

  lemma UnicodeWf(u: string, b: string)
    requires |u| == 5 && u[0] == '\\' && u[1] == 'u' && IsHexDigit(u[2]) && IsHexDigit(u[3]) && IsHexDigit(u[4])
    requires b != [] && IsHexDigit(b[0]) && WfBody(b)
    ensures WfBody(u + b)
  {
    assert (u + b)[6..] == b[1..];
  }

  /** The text of one escape a well-formed body continues: with `\u`
      the body goes on at the fourth hex digit, left in the lookahead. */
  lemma EscapedText(st: Scanner, more: string, tail: string) returns (u: string)
    requires Escaped(st).Match? && WfBody(more) && Escaped(st).after.rest == more + tail
    requires tail != [] && tail[0] == '"'
    ensures WfBody(u + more) && st.rest == u + Escaped(st).after.rest
  {
    var n := if st.rest[1] in SimpleEscapes then 2 else 5;
    AdvanceSplit(st, n);
    u := st.rest[..n];
    if n == 2 {
      assert u == ['\\', st.rest[1]];
      EscapeWf(st.rest[1], more);
    } else {
      assert more != [] && more[0] == st.rest[5];
      UnicodeWf(u, more);
    }
  }

  /** A body the closing '"' follows is well formed. A stray backslash is
      never followed by '"', because '"' is one of the single-character
      escape codes. */
  lemma {:induction false} BodySound(st: Scanner) returns (b: string)
    requires Body(st).Match? && Body(st).after.rest != [] && Body(st).after.rest[0] == '"'
    ensures WfBody(b) && st.rest == b + Body(st).after.rest
    decreases |st.rest|
  {
    var tail := Body(st).after.rest;
    if NoDQuoteSlash(st).Match? {
      var c := st.rest[0];
      ScanSplit(st);
      var more := BodySound(Scan(st));
      b := [c] + more;
      PlainWf(c, more);
      Regroup([c], more, tail);
    } else if Escaped(st).Match? {
      var more := BodySound(Escaped(st).after);
      var u := EscapedText(st, more, tail);
      b := u + more;
      Regroup(u, more, tail);
    } else {
      b := [];
    }
  }

  lemma StringSound(st: Scanner) returns (b: string)
    requires String(st).Match?
    ensures WfBody(b) && st.rest == "\"" + b + "\"" + String(st).after.rest
  {
    ScanSplit(st);
    var body := Body(Scan(st));
    b := BodySound(Scan(st));
    ScanSplit(body.after);
    StringText(b, String(st).after.rest);
  }

  lemma KeywordSound(st: Scanner, word: string, message: string)
    requires word != [] && Keyword(st, word, message).Match?
    ensures st.rest == word + Keyword(st, word, message).after.rest
  {
    AdvanceSplit(st, |word|);
  }

  // Values, objects and arrays.

  lemma WfMembersCons(m: Member, more: seq<Member>)
    requires WfBody(m.key) && Wf(m.value) && Wf(Obj(more))
    ensures Wf(Obj([m] + more)) && ([m] + more)[0] == m && ([m] + more)[1..] == more
  {
    var ms := [m] + more;
    assert forall i | 1 <= i < |ms| :: ms[i] == more[i - 1];
  }

  lemma WfItemsCons(v: Tree, more: seq<Tree>)
    requires Wf(v) && Wf(Arr(more))
    ensures Wf(Arr([v] + more)) && ([v] + more)[0] == v && ([v] + more)[1..] == more
  {
    var vs := [v] + more;
    assert forall i | 1 <= i < |vs| :: vs[i] == more[i - 1];
  }

  lemma ValueSound(st: Scanner) returns (v: Tree)
    requires Value(st).Match?
    ensures Wf(v) && st.rest == Print(v) + Value(st).after.rest
    decreases |st.rest|, 2
  {
    if String(st).Match? {
      var b := StringSound(st);
      v := Str(b);
    } else if Number(st).Match? {
      v := NumberSound(st);
    } else if st.rest != [] && st.rest[0] == '-' {
      assert Value(st) == Composite(Scan(st));
      ScanSplit(st);
      var x := CompositeSound(Scan(st));
      v := Signed(x);
      Regroup("-", Print(x), Value(st).after.rest);
    } else {
      assert Value(st) == Composite(st);
      v := CompositeSound(st);
    }
  }

  lemma CompositeSound(st: Scanner) returns (v: Tree)
    requires Composite(st).Match?
    ensures Unsigned(v) && Wf(v) && st.rest == Print(v) + Composite(st).after.rest
    decreases |st.rest|, 1
  {
    if Object(st).Match? {
      var ms := ObjectSound(st);
      v := Obj(ms);
    } else if Array(st).Match? {
      assert Composite(st) == Array(st);
      v := ArraySound(st);
    } else {
      assert Composite(st) == Literal(st);
      v := LiteralSound(st);
    }
  }

  lemma TrueSound(st: Scanner)
    requires TrueLiteral(st).Match?
    ensures st.rest == Print(True) + TrueLiteral(st).after.rest
  {
    KeywordSound(st, "true", TrueBroken);
  }

  lemma FalseSound(st: Scanner)
    requires FalseLiteral(st).Match?
    ensures st.rest == Print(False) + FalseLiteral(st).after.rest
  {
    KeywordSound(st, "false", FalseBroken);
  }

  lemma NullSound(st: Scanner)
    requires NullLiteral(st).Match?
    ensures st.rest == Print(Null) + NullLiteral(st).after.rest
  {
    KeywordSound(st, "null", NullBroken);
  }

  lemma LiteralSound(st: Scanner) returns (v: Tree)
    requires Literal(st).Match?
    ensures (v.True? || v.False? || v.Null?) && st.rest == Print(v) + Literal(st).after.rest
  {
    var r := Literal(st);
    if r == TrueLiteral(st) {
      TrueSound(st);
      v := True;
    } else if r == FalseLiteral(st) {
      FalseSound(st);
      v := False;
    } else {
      NullSound(st);
      v := Null;
    }
  }

  lemma ObjectSound(st: Scanner) returns (ms: seq<Member>)
    requires Object(st).Match?
    ensures Wf(Obj(ms)) && st.rest == "{" + PrintMembers(ms) + "}" + Object(st).after.rest
    decreases |st.rest|, 0
  {
    var tail := Object(st).after.rest;
    ScanSplit(st);
    var open := Scan(st);
    var first := Pair(open);
    if first.Match? {
      var m := PairSound(open);
      var more := PairsSound(first.after);
      var members := Pairs(first.after);
      ScanSplit(members.after);
      ms := [m] + more;
      WfMembersCons(m, more);
      MembersText(ms, "}" + tail);
    } else {
      ScanSplit(open);
      ms := [];
    }
    BracketText('{', PrintMembers(ms), '}', tail);
  }

  lemma PairsSound(st: Scanner) returns (ms: seq<Member>)
    requires Pairs(st).Match?
    ensures Wf(Obj(ms)) && st.rest == MoreMembers(ms) + Pairs(st).after.rest
    decreases |st.rest|, 0
  {
    if Expect(st, Char(',')).ok {
      var tail := Pairs(st).after.rest;
      ScanSplit(st);
      var p := Pair(Scan(st));
      var m := PairSound(Scan(st));
      var more := PairsSound(p.after);
      ms := [m] + more;
      WfMembersCons(m, more);
      MoreMembersText(ms, tail);
    } else {
      ms := [];
    }
  }

  lemma PairSound(st: Scanner) returns (m: Member)
    requires Pair(st).Match?
    ensures WfBody(m.key) && Wf(m.value) && st.rest == PrintMember(m) + Pair(st).after.rest
    decreases |st.rest|, 0
  {
    var b := StringSound(st);
    var key := String(st);
    ScanSplit(key.after);
    var v := ValueSound(Scan(key.after));
    m := Member(b, v);
    MemberText(m, Pair(st).after.rest);
  }

  lemma ArraySound(st: Scanner) returns (v: Tree)
    requires Array(st).Match?
    ensures (v.Arr? || v.DashArr?) && Wf(v) && st.rest == Print(v) + Array(st).after.rest
    decreases |st.rest|, 0
  {
    var tail := Array(st).after.rest;
    ScanSplit(st);
    var open := Scan(st);
    var first := Value(open);
    if first.Match? {
      var x := ValueSound(open);
      var more := ValuesSound(first.after);
      var items := Values(first.after);
      ScanSplit(items.after);
      var vs := [x] + more;
      WfItemsCons(x, more);
      ItemsText(vs, "]" + tail);
      BracketText('[', PrintItems(vs), ']', tail);
      v := Arr(vs);
    } else if open.rest[0] == '-' {
      ScanSplit(open);
      ScanSplit(Scan(open));
      v := DashArr;
    } else {
      ScanSplit(open);
      v := Arr([]);
      BracketText('[', [], ']', tail);
    }
  }

  lemma ValuesSound(st: Scanner) returns (vs: seq<Tree>)
    requires Values(st).Match?
    ensures Wf(Arr(vs)) && st.rest == MoreItems(vs) + Values(st).after.rest
    decreases |st.rest|, 0
  {
    if Expect(st, Char(',')).ok {
      var tail := Values(st).after.rest;
      ScanSplit(st);
      var v := Value(Scan(st));
      var x := ValueSound(Scan(st));
      var more := ValuesSound(v.after);
      vs := [x] + more;
      WfItemsCons(x, more);
      MoreItemsText(vs, tail);
    } else {
      vs := [];
    }
  }
}

=== FILE: syntax.dfy ===
/** The language the recogniser accepts, stated independently of the rules:
    a syntax tree for documents and values, the conditions that make a tree
    well formed, and the text a tree stands for. The tree admits exactly the
    shapes the C code lets through, including two that plain JSON does not:
    a '-' in front of an object, array or keyword (`Signed`), and the array
    "[-]" (`DashArr`). Whitespace never appears between tokens. */
module Syntax {
  import opened Parser
  import opened Grammar

  /** The optional exponent of a number: marker 'e' or 'E', an optional sign
      ("" , "+" or "-"), and its digits. */
  datatype ExponentPart = NoExponent | Exp(marker: char, sign: string, digits: string)

  datatype Tree =
    | Str(body: string)
    | Num(negative: bool, whole: string, fraction: string, exponent: ExponentPart)
    | Obj(members: seq<Member>)
    | Arr(items: seq<Tree>)
    | DashArr
    | Signed(inner: Tree)
    | True
    | False
    | Null

  datatype Member = Member(key: string, value: Tree)

  predicate AllDigits(t: string) {
    forall i | 0 <= i < |t| :: IsDigit(t[i])
  }

  /** The text between the quotes of a string: code points other than '"'
      and '\' (control characters and line breaks included), single-character
      escapes, and `\u` followed by four hex digits. */
  predicate WfBody(t: string)
    decreases |t|
  {
    if t == [] then true
    else if t[0] == '"' then false
    else if t[0] != '\\' then WfBody(t[1..])
    else if |t| >= 2 && t[1] in SimpleEscapes then WfBody(t[2..])
    else |t| >= 6 && t[1] == 'u' && IsHexDigit(t[2]) && IsHexDigit(t[3]) && IsHexDigit(t[4]) && IsHexDigit(t[5])
         && WfBody(t[6..])
  }

  /** Integer part "0" or a nonzero digit followed by digits; a fraction, when
      present, has at least one digit; so has an exponent. */
  predicate WfNumber(whole: string, fraction: string, exponent: ExponentPart) {
    && whole != [] && AllDigits(whole) && (whole[0] == '0' ==> |whole| == 1)
    && AllDigits(fraction)
    && WfExponent(exponent)
  }

  predicate WfExponent(e: ExponentPart) {
    match e
    case NoExponent => true
    case Exp(m, s, d) => (m == 'e' || m == 'E') && (s == [] || s == "+" || s == "-") && d != [] && AllDigits(d)
  }

  /** Values a '-' may stand in front of: those `value` tries after `number`. */
  predicate Unsigned(v: Tree) {
    v.Obj? || v.Arr? || v.DashArr? || v.True? || v.False? || v.Null?
  }

  predicate Wf(v: Tree) {
    match v
    case Str(b) => WfBody(b)
    case Num(_, w, f, e) => WfNumber(w, f, e)
    case Obj(ms) => forall i | 0 <= i < |ms| :: WfBody(ms[i].key) && Wf(ms[i].value)
    case Arr(vs) => forall i | 0 <= i < |vs| :: Wf(vs[i])
    case DashArr => true
    case Signed(x) => Unsigned(x) && Wf(x)
    case True => true
    case False => true
    case Null => true
  }

  /** What `json` accepts at the top: an object or an array. */
  predicate Document(v: Tree) {
    v.Obj? || v.Arr? || v.DashArr?
  }

  function PrintExponent(e: ExponentPart): string {
    match e
    case NoExponent => ""
    case Exp(m, s, d) => [m] + s + d
  }

  /** A fraction is printed with its '.' only when it has digits. */
  function PrintFraction(f: string): string {
    if f == [] then "" else "." + f
  }

  function PrintNumber(negative: bool, whole: string, fraction: string, exponent: ExponentPart): string {
    (if negative then "-" else "") + whole + PrintFraction(fraction) + PrintExponent(exponent)
  }

  /** The text of a value, with no whitespace between its tokens. */
  function Print(v: Tree): string {
    match v
    case Str(b) => "\"" + b + "\""
    case Num(n, w, f, e) => PrintNumber(n, w, f, e)
    case Obj(ms) => "{" + PrintMembers(ms) + "}"
    case Arr(vs) => "[" + PrintItems(vs) + "]"
    case DashArr => "[-]"
    case Signed(x) => "-" + Print(x)
    case True => "true"
    case False => "false"
    case Null => "null"
  }

  function PrintMember(m: Member): string {
    "\"" + m.key + "\":" + Print(m.value)
  }

  /** Members separated by commas. */
  function PrintMembers(ms: seq<Member>): string {
    if ms == [] then [] else PrintMember(ms[0]) + MoreMembers(ms[1..])
  }

  /** Each member preceded by a comma. */
  function MoreMembers(ms: seq<Member>): string {
    if ms == [] then [] else "," + PrintMember(ms[0]) + MoreMembers(ms[1..])
  }

  /** Items separated by commas. */
  function PrintItems(vs: seq<Tree>): string {
    if vs == [] then [] else Print(vs[0]) + MoreItems(vs[1..])
  }

  /** Each item preceded by a comma. */
  function MoreItems(vs: seq<Tree>): string {
    if vs == [] then [] else "," + Print(vs[0]) + MoreItems(vs[1..])
  }

  /** What may follow a value without extending it: end of input or a code
      point that cannot continue a number (a digit, '.', 'e' or 'E'). Every
      other kind of value ends at its own last code point. */
  predicate Delimited(tail: string) {
    tail == [] || (!IsDigit(tail[0]) && tail[0] != '.' && tail[0] != 'e' && tail[0] != 'E')
  }
}
